=== FILE: README.md ===
# chromectl core, modelled in Dafny

`chromectl` is a single-file command-line tool that drives a local Chrome
through the Chrome DevTools Protocol (CDP). Most of it wraps HTTP, websocket
and process calls. This project models its sequential core:

- **The command correlator and frame router of `CDPConnection`.** A
  connection holds an id counter and a pending table from id to the future a
  caller awaits. `send` allocates the next id, writes `{"id", "method"[,
  "params"]}` and records a waiting slot. The receive loop routes each
  inbound frame. A frame with `"id"` pops its slot and resolves it unless it
  is already done. Any other frame goes to the event handler, if one is set.
  The reply is then unwrapped: an `error` payload raises a CDP error,
  otherwise `result` is returned, defaulting to `{}`. The asyncio loop runs
  one step at a time, so the connection is an immutable record
  (`Correlator.Conn`) with pure transitions `Send`, `Receive`, `Cancel` and
  `SetHandler`. The record also keeps the futures' replies, the log of
  frames written and the frames handed to the handler.
- **Target lookup** (`find_ws_for_target`): the websocket URL of the first
  listed target whose `id` matches.
- **Awaited commands** (`Calls.Call`, and `Calls.CallAfter` when event frames arrive before the reply): `await conn.send(...)` as one step.
  It writes the command, routes the next inbound frame, and gives the caller
  the unwrapped reply if that frame answered it.
- **The `eval` command**: `Runtime.enable`, then, only if that did not
  raise, `Runtime.evaluate`. Also the choice of what to print from its
  result, and the exit status.
- **The console handler of `console-tail`**: the records printed for
  `Log.entryAdded` and `Runtime.consoleAPICalled` events, with argument
  normalisation. `ConsoleTail` composes it with the receive loop.
- **The `stop` command's PID extraction** from a `ps aux` listing. This
  needs Python's `str.splitlines()`, `str.split()`, the substring test and
  `int()` (restricted to ASCII digits), all modelled in `Text`.

Decoded JSON is `Json.Value`. Objects are `map<string, Value>`, and numbers
are integers. The Python exceptions the core can hit are explicit outcomes:

- a lookup on a value that is not a dictionary;
- a missing key read with `[]`;
- an unhashable id.

An exception escaping the event handler, or a frame id that cannot be
looked up, ends the receive task. The model says the same: the `running`
flag drops. Python dictionary lookup is followed exactly: a JSON `true` or
`false` id finds the pending key 1 or 0, and a string or `null` id finds
nothing.

The event loop, the websocket and the HTTP discovery endpoint are not
modelled. Inbound traffic is a sequence of `Correlator.Message` values.
The event handler is a parameter of the receive functions. It returns
false when it raised.

How chromectl behaves, and the model with it:

- chromectl has no timeouts: a command whose reply never comes is awaited forever.
- Pending commands are not failed when the connection ends. Once the loop
  stops they are never resolved (`CorrelatorProofs.StoppedLoopReadsNothing`).
- A connection has one event handler, not a set of filtered subscriptions.
- A cancelled caller's entry stays in the table until a response with its
  id pops it (`Correlator.Cancel`).

## Model

| member | source | states |
|---|---|---|
| `Correlator.Request` | scripts/chromectl.py:89-92 | the outbound frame always carries `id` and `method`; it carries `params` exactly when params are given and non-empty, so `None` and `{}` are both omitted |
| `Correlator.Send` | scripts/chromectl.py:88-95 | the new id is the previous counter plus one and becomes the counter; the frame is appended to the written log; the table gains exactly that id as a waiting slot; every other entry, the resolved replies, the handler and the loop state are unchanged |
| `Correlator.KeyOf` | scripts/chromectl.py:79 | Python dict lookup of a frame's id against integer keys: a number is its own key, `true`/`false` find 1/0, a string or `null` finds nothing, and an array or object is unhashable |
| `Correlator.ReceiveResponse` | scripts/chromectl.py:78-81 | a frame with `id` pops its key from the table and resolves the future only when it was still waiting; an unhashable id ends the loop; nothing else changes |
| `Correlator.ReceiveEvent` | scripts/chromectl.py:82-84 | a frame without `id` is appended to the handled frames and decides whether the loop goes on when a handler is set, and changes nothing otherwise |
| `Correlator.Receive` | scripts/chromectl.py:75-86 | a stopped loop reads nothing; an error or close only ends the loop, failing no pending call; a non-text message is skipped with no change; no message allocates an id, writes a frame, adds a pending entry or restarts the loop |
| `Correlator.ReceiveAll` | scripts/chromectl.py:75-86 | the whole loop never allocates ids, never writes frames, never adds pending entries and never restarts once stopped |
| `Correlator.Cancel` | scripts/chromectl.py:93-98 | cancelling an awaiting caller marks its future cancelled but leaves it in the table; no other entry and no other part of the connection changes |
| `Correlator.SetHandler` | scripts/chromectl.py:103-104 | after setting the handler one is present; nothing else changes |
| `Correlator.Unwrap` | scripts/chromectl.py:99-101 | a reply with `error` raises a CDP error that carries the method and the error payload, whether or not `result` is present; otherwise the call returns `result`, or `{}` when it is absent |
| `Correlator.Outcome` | scripts/chromectl.py:98-101 | a caller has an answer exactly when its future holds a reply |
| `Calls.Call` | scripts/chromectl.py:88-101 | `await conn.send` writes the frame with the next id; the caller is answered exactly when the frame read next carries that id on a running loop, and then gets that frame unwrapped with the table as before; otherwise its id waits in the table; the invariant is kept |
| `Calls.CallAfter` | scripts/chromectl.py:73-101 | `await conn.send` when event frames arrive before the reply: the next id, the frame written and the invariant as for `Call`; with no handler set the call ends exactly as `Call` with the reply read first |
| `CorrelatorProofs.InitialValid` | scripts/chromectl.py:57-60 | a fresh connection (counter 0, empty table, no handler) satisfies the connection invariant |
| `CorrelatorProofs.FreshId` | scripts/chromectl.py:89-95 | on a valid connection, the id `send` allocates is not pending, not yet resolved, and larger than every pending id |
| `CorrelatorProofs.SentIdsIncrease` | scripts/chromectl.py:89-97 | the frames written on a connection carry strictly increasing ids |
| `CorrelatorProofs.SendPreservesValid` | scripts/chromectl.py:88-97 | `send` keeps the invariant: ids 1..counter written in order, pending and resolved ids within 1..counter, resolved ids no longer pending, each reply carrying its own id |
| `CorrelatorProofs.ResponsePreservesValid` | scripts/chromectl.py:78-81 | popping a response's id and resolving a waiting future with it keeps the invariant, whatever the id is |
| `CorrelatorProofs.ReceivePreservesValid` | scripts/chromectl.py:73-86 | routing any inbound message keeps the invariant |
| `CorrelatorProofs.ApplyPreservesValid` | scripts/chromectl.py:73-104 | each transition (send, receive, cancel, set handler) keeps the invariant |
| `CorrelatorProofs.RunPreservesValid` | scripts/chromectl.py:73-104 | every interleaving of sends, receives, cancellations and handler changes keeps the invariant |
| `CorrelatorProofs.NoCrossDelivery` | scripts/chromectl.py:78-98 | along any run from a fresh connection, the reply held by command k's future is a frame whose id is k, and k was allocated |
| `CorrelatorProofs.ResponseTouchesOnlyItsEntry` | scripts/chromectl.py:78-81 | a response whose id is pending removes exactly that key; it resolves the slot only when still waiting (a cancelled one gets nothing); every other entry and every other field is unchanged |
| `CorrelatorProofs.UnknownResponseDropped` | scripts/chromectl.py:79-81 | a response whose id is not pending (unknown, consumed, a string or null) is dropped and the connection is unchanged |
| `CorrelatorProofs.UnhashableResponseEndsLoop` | scripts/chromectl.py:79 | a response whose id is an array or object makes the lookup raise: the loop ends and the table is untouched |
| `CorrelatorProofs.EventLeavesTableAlone` | scripts/chromectl.py:82-84 | a frame without `id` never touches the table, the replies or the counter; it is appended to the handled frames when a handler is set, and discarded with no change otherwise |
| `CorrelatorProofs.ResolvedOnce` | scripts/chromectl.py:79-81 | on a valid connection, no transition changes or removes a reply a future already holds |
| `CorrelatorProofs.ResolvedOnceRun` | scripts/chromectl.py:79-81 | along any run, a future is resolved at most once: its reply never changes again |
| `CorrelatorProofs.MatchingResponseDelivered` | scripts/chromectl.py:78-81 | a waiting caller answered by a frame with its id receives exactly that frame, unwrapped |
| `CorrelatorProofs.SendThenAnswer` | scripts/chromectl.py:88-101 | a command sent on a running valid connection and answered by a frame carrying the new id returns that frame unwrapped |
| `CorrelatorProofs.ReceiveAllPreservesValid` | scripts/chromectl.py:73-86 | the receive loop keeps the invariant whatever sequence of messages it reads |
| `CorrelatorProofs.StoppedLoopReadsNothing` | scripts/chromectl.py:75-86 | once the receive loop has ended (error, close, or an exception), no later message changes anything, so pending calls are never resolved |
| `Targets.FindWsForTarget` | scripts/chromectl.py:106-111 | not-found exactly when every entry is a target record with another id; on success the URL is that of a matching record before which every entry is a non-matching record; a missing URL (the `KeyError`) means the first match has no `webSocketDebuggerUrl`, and a non-object entry reached by the scan is the `AttributeError` of `t.get` |
| `Targets.FirstMatchDecides` | scripts/chromectl.py:108-110 | when a target matches, anything appended after the list does not change the result |
| `Targets.FindsFirstMatch` | scripts/chromectl.py:108-110 | a matching target that has a URL and is preceded only by non-matching records yields its URL |
| `Evaluation.EvaluateParams` | scripts/chromectl.py:171-176 | the evaluate parameters are exactly the expression plus `returnByValue`, `awaitPromise` and `replMode`, all true |
| `Evaluation.EvalCommand` | scripts/chromectl.py:168-186 | `eval` writes `Runtime.enable` under the next id; if it goes unanswered the command is still awaiting; an error reply ends it with that CDP error, and `Runtime.evaluate` is never written; otherwise `Runtime.evaluate` with the evaluate parameters is written under the following id, and the command finishes exactly when that is answered, with the outcome of its reply; a finished command leaves the table as it found it |
| `Evaluation.SelectOutput` | scripts/chromectl.py:177-186 | the command exits with the exception details exactly when the result has `exceptionDetails`; a `result` that is not an object makes the selection raise |
| `Evaluation.PrintsValueOrObject` | scripts/chromectl.py:180-186 | without exception details: a remote object with `value` prints the value; one without prints the whole object; a missing `result` prints `{}`; a non-object `result` is a fault |
| `Evaluation.TypeIsIrrelevant` | scripts/chromectl.py:181-184 | a remote object with `value` prints that value whatever its `type` says: the `type == "object"` branch is redundant |
| `Evaluation.EvalCommandAfter` | scripts/chromectl.py:168-186 | `eval` with event frames read before each reply (such as the contexts Chrome announces after `Runtime.enable`): since `eval` sets no handler, it ends exactly as `EvalCommand` with the replies read first |
| `Evaluation.ExitStatus` | scripts/chromectl.py:177-179 | status 0 exactly when a value is printed; status 2 exactly for exception details or a CDP error (the latter via the handler in `amain`); an uncaught exception gives status 1 |
| `Evaluation.EvalOutcome` | scripts/chromectl.py:171-186 | an evaluate reply with `error` ends in the CDP error of `Runtime.evaluate` carrying that payload; any other reply selects what to print from its `result`, `{}` when absent |
| `Evaluation.EvalPrintsValue` | scripts/chromectl.py:170-184 | when both commands are answered without error and the remote object has `value` v, `eval` prints v and exits 0 |
| `Evaluation.EvalExceptionExits` | scripts/chromectl.py:170-179 | when both commands are answered without error and the result has `exceptionDetails`, `eval` prints them and exits 2 |
| `Evaluation.EnableErrorStopsEval` | scripts/chromectl.py:168-171 | an error reply to `Runtime.enable` ends `eval` with that CDP error and status 2, having written only the enable frame |
| `Console.NormaliseArg` | scripts/chromectl.py:235-238 | an argument maps to its `value` if present, else to its `description` if truthy, else to its `type` (`None` when absent) |
| `Console.NormaliseList` | scripts/chromectl.py:233-238 | a list of arguments normalises exactly when every element is an object; the output has the same length and order, and element i is argument i normalised |
| `Console.ArgsOf` | scripts/chromectl.py:232-234 | a list `args` is normalised element-wise; of the other values exactly the empty string and the empty object yield no arguments, and every other value raises |
| `Console.HandleEvent` | scripts/chromectl.py:219-239 | an event is skipped exactly when its method is neither `Log.entryAdded` nor `Runtime.consoleAPICalled`; a log record comes only from the first, a console record only from the second; a log event raises exactly when its `params` or `entry` is not a dictionary, a console event exactly when its `params` is not a dictionary or its `args` cannot be iterated into normalised values |
| `Console.LogEntryRecord` | scripts/chromectl.py:224-229 | a log event whose `params` and `entry` are dictionaries prints the entry's level, source and text, `None` for each that is missing |
| `Console.ConsoleCallKeepsArguments` | scripts/chromectl.py:230-239 | a console call whose `args` is a list of objects prints its `type` and one normalised value per argument, in order |
| `Console.ConsoleCallWithoutArgs` | scripts/chromectl.py:231-239 | a console call whose `args` is absent, the empty string or the empty object prints its `type` with an empty argument list |
| `Console.LogEntryFields` | scripts/chromectl.py:224-229 | a log event without `params` or without `entry` prints level, source and text all `None` |
| `Console.Printed` | scripts/chromectl.py:219-239 | every printed record is the one some event emits and every emitting event's record is printed; there are no more records than events, and events that emit nothing print nothing |
| `Console.PrintedOne` | scripts/chromectl.py:219-239 | a single event prints exactly the record it emits, or nothing when it emits none |
| `Console.PrintedAppend` | scripts/chromectl.py:219-239 | the records of two consecutive runs of events are the records of the first run followed by those of the second, so records come out in arrival order |
| `Console.OtherEventsPrintNothing` | scripts/chromectl.py:224-239 | events of any other method print nothing |
| `ConsoleTail.HandlesEveryEvent` | scripts/chromectl.py:82-84 | with a handler set that does not raise, the loop hands over every event in arrival order, keeps running, and leaves the table alone |
| `ConsoleTail.EventStep` | scripts/chromectl.py:82-84 | an event the set handler completes on is appended to the handled events and the loop goes on, nothing else changing |
| `ConsoleTail.PrintsEveryEvent` | scripts/chromectl.py:219-241 | with the console handler installed, the output grows by exactly the records of the events received, in order |
| `CorrelatorProofs.NothingBeforeHandler` | scripts/chromectl.py:82-84 | event frames received while no handler is set change nothing, so they are never printed |
| `ConsoleTail.RaiseEndsTail` | scripts/chromectl.py:75-84 | an event the console handler raises on ends the receive loop; nothing from it or any later message is printed |
| `Text.Contains` | scripts/chromectl.py:260 | the substring test holds exactly when `sub` occurs in `s` at some position |
| `Text.SplitLines` | scripts/chromectl.py:259 | `splitlines()` yields lines that contain no line boundary, and no more lines than characters |
| `Text.SplitLinesKeepsText` | scripts/chromectl.py:259 | the lines, concatenated, are the input with its boundary characters removed |
| `Text.SplitLinesOfRows` | scripts/chromectl.py:259 | boundary-free lines, each ending in a newline, split back into exactly those lines (a final newline adds no empty line) |
| `Text.SplitLinesOfTerminated` | scripts/chromectl.py:259 | boundary-free lines, each ended by any boundary character or by `\r\n` (a lone `\r` not followed by `\n`), then an unterminated last part, split back into exactly those lines plus the last part when it is non-empty |
| `Text.SplitLinesOfLine` | scripts/chromectl.py:259 | a boundary-free line and its terminator come off the front as the first line, and splitting goes on with the rest |
| `Text.Fields` | scripts/chromectl.py:261 | `split()` yields non-empty fields with no whitespace which, concatenated, are the input with its whitespace removed |
| `Text.FieldsSkipBlank` | scripts/chromectl.py:261 | a leading run of whitespace yields no field |
| `Text.FieldsOfJoined` | scripts/chromectl.py:261 | non-empty words without whitespace, joined by single spaces, split back into the same words, so fields are maximal runs |
| `Text.ParseNat` | scripts/chromectl.py:263-267 | `int()` succeeds exactly on strings of 1 to 4300 decimal digits, the default conversion limit |
| `Text.ParseLeadingZero` | scripts/chromectl.py:264 | a leading zero does not change the value `int()` returns, so with `ParseShow` every accepted digit string has the value of its digits |
| `Text.ParseShow` | scripts/chromectl.py:264 | parsing the decimal rendering of n gives back n, for numbers of at most 4300 digits |
| `Processes.PidOf` | scripts/chromectl.py:260-267 | a line yields a PID exactly when it mentions both "Google Chrome" and "chromectl", has at least two fields, and its second field parses; the PID is that parse |
| `Processes.VictimsOf` | scripts/chromectl.py:258-267 | every selected pair is a listing line with its own PID, and every line that yields a PID is selected with it |
| `Processes.PidsToStop` | scripts/chromectl.py:250-267 | each process to stop comes from a line of the `ps` output and carries that line's PID, and every line of the output that yields a PID is selected with it |
| `Processes.VictimsAppend` | scripts/chromectl.py:259-265 | selection distributes over consecutive runs of lines, so the PIDs keep listing order |
| `Processes.FieldsStartWith` | scripts/chromectl.py:261 | in `user pid rest` with the columns separated by any non-empty runs of whitespace, and user and pid non-empty and whitespace-free, the first two fields are user and pid |
| `Processes.SecondFieldIsPid` | scripts/chromectl.py:261-264 | a selected line `user <n> rest`, whatever whitespace pads its columns, yields PID n when n has at most 4300 digits |

## Left out

- HTTP discovery and tab creation (`http_get_json`, `list_targets`, `new_tab`, scripts/chromectl.py:37-52): foreign library I/O. Target lookup takes the decoded list as input.
- Websocket connect and close (`__aenter__`, `__aexit__`), `send_json`, and decoding each text message with `json.loads`: foreign library I/O. Inbound traffic is a sequence of decoded messages. Text that is not JSON, or JSON that is not an object, is not modelled; CDP sends only objects.
- asyncio futures and tasks: a future is a slot that is waiting or cancelled while in the table, and holds its reply once resolved. Real concurrency and suspension are not modelled.
- JSON numbers are integers only. The core compares ids and reads fields; it does no float arithmetic.
- The relative timestamp of each console record (`time.time()` deltas), the `--for` duration parsed with `float()`, and `asyncio.sleep`: clocks and floating point.
- `cmd_start`, `cmd_list`, `cmd_open`, `cmd_screenshot` and `build_parser`: process launch, printing, base64 and file output, argument parsing. They are outside this core. The screenshot command's `int()` truncation of layout metrics is floating point. A full-page screenshot overrides the viewport and never restores it.
- `cmd_stop`'s `os.kill` loop, its messages and its one-second sleep: OS calls. The model stops at the list of PIDs to signal.
- Calls.Call: the caller's reply is the one frame read after the command is written. Event frames read before it are covered by `Calls.CallAfter`; replies to other commands in between are covered by the `Correlator` transitions and `Run`, not by `Call`.
- `cmd_console_tail`'s own `Runtime.enable` and `Log.enable` commands: `ConsoleTail` starts from a connection with the handler set. The awaited-command step is the same `Calls.Call` that `eval` uses.
- Text.ParseNat: accepts ASCII decimal digits only. Python's `int()` also accepts a sign, underscores between digits and non-ASCII decimal digits. Surrounding whitespace cannot occur, because fields come from `split()`.
- Evaluation.SelectOutput: the contract states the exception-details case and the error for a non-object `result`. Which value is printed for an object result is stated by `Evaluation.PrintsValueOrObject` and `Evaluation.TypeIsIrrelevant`.
- Evaluation.ExitStatus: the traceback of an uncaught Python exception is not modelled, only its status 1.
- The JSON text printed by each command: output formatting. Printed values are modelled as the JSON values themselves.

=== FILE: calls.dfy ===
/**
 One awaited command, `await conn.send(name, params)` in scripts/chromectl.py,
 on a connection whose receive loop reads `reply` next: the command frame is
 written, the reply frame is routed, and the caller gets the unwrapped reply
 when that frame answered its command. When it did not, the caller is still
 awaiting.
 */
module Calls {
  import opened Wrappers
  import opened Json
  import opened Correlator
  import CorrelatorProofs

  /** The frame answers command `id`: the loop is still reading and the
      frame's id finds the key `id`. */
  predicate Answers(c: Conn, f: Object, id: int)
  {
    c.running && "id" in f && KeyOf(f["id"]) == Key(id)
  }

  /** The connection after the call, the id it allocated, and what the
      caller got: `None` while it is still awaiting. */
  datatype Called = Called(conn: Conn, id: nat, answer: Option<Result<Value, CdpError>>)

  function Call(c: Conn, name: string, params: Option<Object>, reply: Object, handler: Object -> bool): (r: Called)
    requires Valid(c)
    ensures Valid(r.conn)
    ensures r.id == c.counter + 1 == r.conn.counter
    ensures r.conn.sent == c.sent + [Request(r.id, name, params)]
    ensures r.answer.Some? <==> Answers(c, reply, r.id)
    ensures r.answer.Some? ==> r.answer.value == Unwrap(name, reply)
    ensures r.answer.Some? ==> r.conn.pending == c.pending && r.conn.running
    ensures r.answer.None? ==> r.id in r.conn.pending && r.conn.pending[r.id] == Waiting
    ensures r.conn.hasHandler == c.hasHandler
  {
    var s := Send(c, name, params);
    CorrelatorProofs.SendPreservesValid(c, name, params);
    var d := Receive(s.conn, Text(reply), handler);
    CorrelatorProofs.ReceivePreservesValid(s.conn, Text(reply), handler);
    assert Answers(c, reply, s.id) ==> d.pending == s.conn.pending - {s.id} == c.pending;
    Called(d, s.id, Outcome(d, s.id, name))
  }

  /** `await conn.send(...)` when the loop reads the event frames `before`
      ahead of the reply. Without a handler those frames are discarded, so
      the call ends exactly as if the reply had come first. */
  function CallAfter(c: Conn, name: string, params: Option<Object>, before: seq<Object>, reply: Object,
                     handler: Object -> bool): (r: Called)
    requires Valid(c)
    ensures Valid(r.conn)
    ensures r.id == c.counter + 1 == r.conn.counter
    ensures r.conn.sent == c.sent + [Request(r.id, name, params)]
    ensures r.conn.hasHandler == c.hasHandler
    ensures !c.hasHandler && (forall i :: 0 <= i < |before| ==> IsEvent(before[i])) ==>
              r == Call(c, name, params, reply, handler)
  {
    var s := Send(c, name, params);
    CorrelatorProofs.SendPreservesValid(c, name, params);
    var e := ReceiveAll(s.conn, Events(before), handler);
    CorrelatorProofs.ReceiveAllPreservesValid(s.conn, Events(before), handler);
    assert (!c.hasHandler && forall i :: 0 <= i < |before| ==> IsEvent(before[i])) ==> e == s.conn by {
      if !c.hasHandler && forall i :: 0 <= i < |before| ==> IsEvent(before[i]) {
        CorrelatorProofs.NothingBeforeHandler(s.conn, before, handler);
      }
    }
    var d := Receive(e, Text(reply), handler);
    CorrelatorProofs.ReceivePreservesValid(e, Text(reply), handler);
    Called(d, s.id, Outcome(d, s.id, name))
  }
}

=== FILE: console.dfy ===
/**
 The console event handler of `console-tail` (`cmd_console_tail` in
 scripts/chromectl.py): it turns `Log.entryAdded` and
 `Runtime.consoleAPICalled` events into printed records and ignores every
 other event. The relative timestamp each record carries is left out.
 */
module Console {
  import opened Wrappers
  import opened Json
  import opened Seqs

  datatype ConsoleRecord =
    | LogEntry(level: Value, source: Value, text: Value)
    | ConsoleCall(kind: Value, args: seq<Value>)

  /** What the handler does with one event: print a record, print nothing,
      or raise (a field it reads through `.get` or iterates is not shaped
      as a dictionary or list). A raise ends the receive loop. */
  datatype HandlerResult = Emit(rec: ConsoleRecord) | Skip | Raise

  const LogEntryAdded: string := "Log.entryAdded"
  const ConsoleApiCalled: string := "Runtime.consoleAPICalled"

  /** One console argument: its `value` when it has one, else its
      `description` when that is truthy, else its `type` (`None` when
      absent). */
  function NormaliseArg(a: Object): (r: Value)
    ensures "value" in a ==> r == a["value"]
    ensures "value" !in a && "description" in a && Truthy(a["description"]) ==> r == a["description"]
    ensures "value" !in a && !("description" in a && Truthy(a["description"])) ==> r == Get(a, "type")
  {
    if "value" in a then a["value"] else Or(Get(a, "description"), Get(a, "type"))
  }

  /** Normalise a list of arguments; `None` when an element is not an
      object (the handler raises on it). */
  function NormaliseList(xs: seq<Value>): (r: Option<seq<Value>>)
    ensures r.Some? <==> forall i :: 0 <= i < |xs| ==> xs[i].Obj?
    ensures r.Some? ==> |r.value| == |xs|
    ensures r.Some? ==> forall i :: 0 <= i < |xs| ==> r.value[i] == NormaliseArg(xs[i].fields)
    decreases |xs|
  {
    if xs == [] then Some([])
    else
      match xs[0]
      case Obj(a) =>
        var rest := NormaliseList(xs[1..]);
        assert forall i :: 1 <= i < |xs| ==> xs[i] == xs[1..][i - 1];
        if rest.Some? then Some([NormaliseArg(a)] + rest.value) else None
      case _ => None
  }

  /** Iterating the `args` field: a list is normalised element by element;
      an empty string or empty dictionary iterates nothing; any other value
      raises (iterating a non-empty string or dictionary yields strings,
      which the loop body cannot read). */
  function ArgsOf(v: Value): (r: Option<seq<Value>>)
    ensures v.Arr? ==> r == NormaliseList(v.items)
    ensures r.Some? && !v.Arr? ==> r.value == []
    ensures !v.Arr? ==> (r.Some? <==> v == Str([]) || v == Obj(map[]))
  {
    match v
    case Arr(xs) => NormaliseList(xs)
    case Str(s) => if s == [] then Some([]) else None
    case Obj(m) => if m == map[] then Some([]) else None
    case _ => None
  }

  /** `evt.get("params", {})`. */
  function ParamsOf(evt: Object): Value
  {
    GetOr(evt, "params", Empty)
  }

  /** The handler: a `Log.entryAdded` event prints the entry's level,
      source and text; a `Runtime.consoleAPICalled` event prints its type
      and normalised arguments; any other event is ignored. Reading a field
      of something that is not a dictionary raises. */
  function HandleEvent(evt: Object): (r: HandlerResult)
    ensures r.Skip? <==> Get(evt, "method") != Str(LogEntryAdded) && Get(evt, "method") != Str(ConsoleApiCalled)
    ensures r.Emit? && r.rec.LogEntry? ==> Get(evt, "method") == Str(LogEntryAdded)
    ensures r.Emit? && r.rec.ConsoleCall? ==> Get(evt, "method") == Str(ConsoleApiCalled)
    ensures Get(evt, "method") == Str(LogEntryAdded) ==>
              (r.Raise? <==> !ParamsOf(evt).Obj? || !GetOr(ParamsOf(evt).fields, "entry", Empty).Obj?)
    ensures Get(evt, "method") == Str(ConsoleApiCalled) ==>
              (r.Raise? <==> !ParamsOf(evt).Obj? || ArgsOf(GetOr(ParamsOf(evt).fields, "args", Arr([]))).None?)
  {
    var name := Get(evt, "method");
    var params := ParamsOf(evt);
    if name == Str(LogEntryAdded) then
      match params
      case Obj(p) =>
        (match GetOr(p, "entry", Empty)
         case Obj(e) => Emit(LogEntry(Get(e, "level"), Get(e, "source"), Get(e, "text")))
         case _ => Raise)
      case _ => Raise
    else if name == Str(ConsoleApiCalled) then
      match params
      case Obj(p) =>
        (match ArgsOf(GetOr(p, "args", Arr([])))
         case Some(vals) => Emit(ConsoleCall(Get(p, "type"), vals))
         case None => Raise)
      case _ => Raise
    else Skip
  }

  /** The handler as the receive loop sees it: false when it raised. */
  predicate Completes(evt: Object)
  {
    !HandleEvent(evt).Raise?
  }

  /** A console call whose arguments are a list of objects prints one value
      per argument, in the same order, each normalised. */
  lemma ConsoleCallKeepsArguments(evt: Object, p: Object, xs: seq<Value>)
    requires Get(evt, "method") == Str(ConsoleApiCalled)
    requires "params" in evt && evt["params"] == Obj(p)
    requires "args" in p && p["args"] == Arr(xs)
    requires forall i :: 0 <= i < |xs| ==> xs[i].Obj?
    ensures HandleEvent(evt).Emit? && HandleEvent(evt).rec.ConsoleCall?
    ensures HandleEvent(evt).rec.kind == Get(p, "type")
    ensures |HandleEvent(evt).rec.args| == |xs|
    ensures forall i :: 0 <= i < |xs| ==> HandleEvent(evt).rec.args[i] == NormaliseArg(xs[i].fields)
  {
  }

  /** A console call with no `args` field prints an empty argument list. */
  lemma ConsoleCallWithoutArgs(evt: Object, p: Object)
    requires Get(evt, "method") == Str(ConsoleApiCalled)
    requires "params" in evt && evt["params"] == Obj(p)
    requires "args" !in p || p["args"] == Str([]) || p["args"] == Obj(map[])
    ensures HandleEvent(evt) == Emit(ConsoleCall(Get(p, "type"), []))
  {
  }

  /** A log entry event prints the entry's level, source and text; an event
      without `params` or without `entry` prints a record of three `None`s. */
  lemma LogEntryFields(evt: Object)
    requires Get(evt, "method") == Str(LogEntryAdded)
    requires "params" !in evt || (evt["params"].Obj? && "entry" !in evt["params"].fields)
    ensures HandleEvent(evt) == Emit(LogEntry(Null, Null, Null))
  {
  }

  /** A log event whose `params` and `entry` are dictionaries prints the
      entry's level, source and text (`None` for each that is missing). */
  lemma LogEntryRecord(evt: Object, p: Object, e: Object)
    requires Get(evt, "method") == Str(LogEntryAdded)
    requires "params" in evt && evt["params"] == Obj(p)
    requires "entry" in p && p["entry"] == Obj(e)
    ensures HandleEvent(evt) == Emit(LogEntry(Get(e, "level"), Get(e, "source"), Get(e, "text")))
  {
  }

  /** The records printed for a sequence of events, in order: every record
      is the one some event emits, and only emitting events print. */
  function Printed(events: seq<Object>): (out: seq<ConsoleRecord>)
    ensures |out| <= |events|
    ensures forall rec :: rec in out ==> exists i :: 0 <= i < |events| && HandleEvent(events[i]) == Emit(rec)
    ensures (forall i :: 0 <= i < |events| ==> !HandleEvent(events[i]).Emit?) ==> out == []
    ensures forall i :: 0 <= i < |events| && HandleEvent(events[i]).Emit? ==> HandleEvent(events[i]).rec in out
    decreases |events|
  {
    if events == [] then []
    else
      var rest := Printed(events[1..]);
      assert forall i :: 1 <= i < |events| ==> events[i] == events[1..][i - 1];
      match HandleEvent(events[0])
      case Emit(rec) => [rec] + rest
      case _ => rest
  }

  /** One event prints exactly the record it emits, if any. */
  lemma PrintedOne(e: Object)
    ensures Printed([e]) == if HandleEvent(e).Emit? then [HandleEvent(e).rec] else []
  {
    assert [e][1..] == [];
  }

  /** Printing distributes over consecutive runs of events, so records come
      out in the order their events arrived. */
  lemma {:induction false} PrintedAppend(a: seq<Object>, b: seq<Object>)
    ensures Printed(a + b) == Printed(a) + Printed(b)
    decreases |a|
  {
    if a != [] {
      assert (a + b)[0] == a[0];
      assert (a + b)[1..] == a[1..] + b;
      PrintedAppend(a[1..], b);
      var e := HandleEvent(a[0]);
      if e.Emit? {
        AppendAssoc([e.rec], Printed(a[1..]), Printed(b));
      }
    } else {
      assert a + b == b;
    }
  }

  /** Events of any other method never print anything. */
  lemma {:induction false} OtherEventsPrintNothing(events: seq<Object>)
    requires forall i :: 0 <= i < |events| ==>
      Get(events[i], "method") != Str(LogEntryAdded) && Get(events[i], "method") != Str(ConsoleApiCalled)
    ensures Printed(events) == []
    decreases |events|
  {
    if events != [] {
      assert HandleEvent(events[0]).Skip?;
      OtherEventsPrintNothing(events[1..]);
    }
  }
}

=== FILE: console_tail.dfy ===
/**
 `console-tail` put together: the receive loop of the connection with the
 console handler installed. Events reach the handler in arrival order, none
 arrives before the handler is set, and a handler that raises ends the
 loop, so nothing after that event is printed.
 */
module ConsoleTail {
  import opened Json
  import opened Seqs
  import opened Correlator
  import opened Console
  import CorrelatorProofs

  /** What the tail has printed so far. */
  function Output(c: Conn): seq<ConsoleRecord>
  {
    Printed(c.handled)
  }

  /** With the handler set and no event making it raise, every event is
      handled in arrival order and the loop keeps running. */
  lemma {:induction false} HandlesEveryEvent(c: Conn, fs: seq<Object>, handler: Object -> bool)
    requires c.running && c.hasHandler
    requires forall i :: 0 <= i < |fs| ==> IsEvent(fs[i]) && handler(fs[i])
    ensures ReceiveAll(c, Events(fs), handler).handled == c.handled + fs
    ensures ReceiveAll(c, Events(fs), handler).running
    ensures ReceiveAll(c, Events(fs), handler).pending == c.pending
    decreases |fs|
  {
    if fs == [] {
      assert c.handled + fs == c.handled;
    } else {
      var c' := c.(handled := c.handled + [fs[0]]);
      EventStep(c, fs[0], handler);
      ReceiveAllCons(c, Text(fs[0]), Events(fs[1..]), handler);
      assert Events(fs) == [Text(fs[0])] + Events(fs[1..]);
      assert forall i :: 0 <= i < |fs| - 1 ==> fs[1..][i] == fs[i + 1];
      HandlesEveryEvent(c', fs[1..], handler);
      AppendHead(c.handled, fs);
    }
  }

  /** The loop reads its first message, then the rest. */
  lemma ReceiveAllCons(c: Conn, m: Message, ms: seq<Message>, handler: Object -> bool)
    ensures ReceiveAll(c, [m] + ms, handler) == ReceiveAll(Receive(c, m, handler), ms, handler)
  {
    assert ([m] + ms)[1..] == ms;
  }

  /** One event the handler completes on is appended to the handled ones
      and the loop goes on. */
  lemma EventStep(c: Conn, f: Object, handler: Object -> bool)
    requires c.running && c.hasHandler && IsEvent(f) && handler(f)
    ensures Receive(c, Text(f), handler) == c.(handled := c.handled + [f])
  {
  }

  /** The printed records are those of the events, in order, after what
      was printed before. */
  lemma PrintsEveryEvent(c: Conn, fs: seq<Object>)
    requires c.running && c.hasHandler
    requires forall i :: 0 <= i < |fs| ==> IsEvent(fs[i]) && Completes(fs[i])
    ensures Output(ReceiveAll(c, Events(fs), Completes)) == Output(c) + Printed(fs)
  {
    HandlesEveryEvent(c, fs, Completes);
    PrintedAppend(c.handled, fs);
  }

  /** An event the handler raises on ends the loop: it and everything after
      it print nothing more. */
  lemma RaiseEndsTail(c: Conn, f: Object, ms: seq<Message>)
    requires c.running && c.hasHandler && IsEvent(f) && !Completes(f)
    ensures ReceiveAll(c, [Text(f)] + ms, Completes) == c.(handled := c.handled + [f], running := false)
    ensures Output(ReceiveAll(c, [Text(f)] + ms, Completes)) == Output(c) + Printed([f])
    ensures Printed([f]) == []
  {
    var c' := Receive(c, Text(f), Completes);
    assert c' == c.(handled := c.handled + [f], running := false);
    assert ([Text(f)] + ms)[1..] == ms;
    CorrelatorProofs.StoppedLoopReadsNothing(c', ms, Completes);
    PrintedAppend(c.handled, [f]);
  }
}

=== FILE: correlator.dfy ===
/**
 The command correlator and frame router of one debugging connection
 (`CDPConnection` in scripts/chromectl.py).

 The connection owns an id counter and a table of pending commands. `Send`
 allocates the next id, writes the command frame and records a waiting slot;
 the receive loop routes every inbound frame: a frame carrying `"id"` takes
 its slot out of the table and resolves it (at most once), any other frame
 goes to the event handler when one is set. The asyncio event loop runs one
 step at a time, so every transition is an ordinary function on `Conn`.

 The event handler is a parameter of the receive functions: it returns
 false when it raised, which (as in chromectl) ends the receive loop.
 */
module Correlator {
  import opened Wrappers
  import opened Json

  /** The future a caller awaits, as it sits in the pending table. A slot in
      the table is never resolved: resolving it is what takes it out. It can
      however be cancelled, when the awaiting task is cancelled. */
  datatype Slot = Waiting | Cancelled

  /** One websocket message as the receive loop iterates it. `Text` carries
      the decoded JSON object; `Other` is any non-text message the loop
      skips; `WsError` breaks the loop; `Closed` ends the iteration. */
  datatype Message = Text(frame: Object) | Other | WsError | Closed

  /** How a frame's `"id"` value finds an integer key in a Python dict:
      JSON numbers are the key itself, `true`/`false` hash as 1/0, strings
      and `null` match no integer key, arrays and objects are unhashable
      (the lookup raises). */
  datatype IdKey = Key(k: int) | NoKey | Unhashable

  function KeyOf(v: Value): (r: IdKey)
    ensures v.Num? ==> r == Key(v.n)
    ensures v == Bool(true) ==> r == Key(1)
    ensures v == Bool(false) ==> r == Key(0)
    ensures r.NoKey? <==> v.Null? || v.Str?
    ensures r.Unhashable? <==> v.Arr? || v.Obj?
  {
    match v
    case Num(n) => Key(n)
    case Bool(b) => Key(if b then 1 else 0)
    case Null => NoKey
    case Str(_) => NoKey
    case Arr(_) => Unhashable
    case Obj(_) => Unhashable
  }

  /** The error `send` raises when the reply carries an error payload. */
  datatype CdpError = CdpError(name: string, payload: Value)

  datatype Conn = Conn(
    counter: nat,               // the last id handed out
    pending: map<int, Slot>,    // the pending table
    replies: map<int, Object>,  // the reply each resolved future holds
    sent: seq<Object>,          // frames written to the socket, in order
    hasHandler: bool,           // an event handler is set
    handled: seq<Object>,       // frames passed to the event handler, in order
    running: bool               // the receive loop is still iterating
  )

  /** A connection just entered: nothing sent, no handler, loop running. */
  const Initial: Conn := Conn(0, map[], map[], [], false, [], true)

  /** The connection invariant. Ids in the table and in the resolved futures
      were all handed out, a resolved id is no longer pending, a resolved
      future holds a frame carrying its own id, and the frames written so far
      carry ids 1, 2, 3, ... in order. */
  ghost predicate Valid(c: Conn)
  {
    && |c.sent| == c.counter
    && Numbered(c.sent)
    && (forall k :: k in c.pending ==> 1 <= k <= c.counter)
    && (forall k :: k in c.replies ==> 1 <= k <= c.counter && k !in c.pending)
    && (forall k :: k in c.replies ==> "id" in c.replies[k] && KeyOf(c.replies[k]["id"]) == Key(k))
  }

  /** Frames carrying ids 1, 2, 3, ... in order, each naming a method. */
  predicate Numbered(sent: seq<Object>)
  {
    forall i :: 0 <= i < |sent| ==> "id" in sent[i] && sent[i]["id"] == Num(i + 1) && "method" in sent[i]
  }

  /** The outbound command frame: always `id` and `method`, and `params` only
      when params were given and are non-empty (Python `if params:`). */
  function Request(id: nat, name: string, params: Option<Object>): (msg: Object)
    ensures "id" in msg && msg["id"] == Num(id)
    ensures "method" in msg && msg["method"] == Str(name)
    ensures "params" in msg <==> params.Some? && params.value != map[]
    ensures "params" in msg ==> msg["params"] == Obj(params.value)
    ensures msg.Keys <= {"id", "method", "params"}
  {
    var base := map["id" := Num(id), "method" := Str(name)];
    if params.Some? && |params.value| > 0 then base["params" := Obj(params.value)] else base
  }

  datatype Sent = Sent(conn: Conn, id: nat, msg: Object)

  /** `send` up to the point where it awaits its future. */
  function Send(c: Conn, name: string, params: Option<Object>): (r: Sent)
    ensures r.id == c.counter + 1 == r.conn.counter
    ensures r.msg == Request(r.id, name, params)
    ensures r.conn.sent == c.sent + [r.msg]
    ensures r.conn.pending.Keys == c.pending.Keys + {r.id}
    ensures r.conn.pending[r.id] == Waiting
    ensures forall k :: k in c.pending && k != r.id ==> r.conn.pending[k] == c.pending[k]
    ensures r.conn.replies == c.replies && r.conn.handled == c.handled
    ensures r.conn.running == c.running && r.conn.hasHandler == c.hasHandler
  {
    var id := c.counter + 1;
    var msg := Request(id, name, params);
    Sent(c.(counter := id, pending := c.pending[id := Waiting], sent := c.sent + [msg]), id, msg)
  }

  /** The awaiting task of command `k` is cancelled: its future is cancelled
      but, as in chromectl, left in the pending table. */
  function Cancel(c: Conn, k: int): (r: Conn)
    ensures r.pending.Keys == c.pending.Keys
    ensures forall j :: j in c.pending && j != k ==> r.pending[j] == c.pending[j]
    ensures k in c.pending ==> r.pending[k] == Cancelled
    ensures r.(pending := c.pending) == c
  {
    if k in c.pending then c.(pending := c.pending[k := Cancelled]) else c
  }

  /** `set_event_handler`. */
  function SetHandler(c: Conn): (r: Conn)
    ensures r.hasHandler
    ensures r.(hasHandler := c.hasHandler) == c
  {
    c.(hasHandler := true)
  }

  /** The frame's id finds a slot in the table that is still waiting. */
  predicate AnswersWaiting(c: Conn, f: Object)
  {
    "id" in f && KeyOf(f["id"]).Key? && KeyOf(f["id"]).k in c.pending && c.pending[KeyOf(f["id"]).k] == Waiting
  }

  /** A frame carrying `"id"`: pop that key from the table and resolve the
      popped future unless it is already done (cancelled). */
  function ReceiveResponse(c: Conn, f: Object): (r: Conn)
    requires "id" in f
    ensures r.running == (c.running && !KeyOf(f["id"]).Unhashable?)
    ensures KeyOf(f["id"]).Key? ==> r.pending == c.pending - {KeyOf(f["id"]).k}
    ensures !KeyOf(f["id"]).Key? ==> r.pending == c.pending
    ensures AnswersWaiting(c, f) ==> r.replies == c.replies[KeyOf(f["id"]).k := f]
    ensures !AnswersWaiting(c, f) ==> r.replies == c.replies
    ensures r.(pending := c.pending, replies := c.replies, running := c.running) == c
  {
    match KeyOf(f["id"])
    case Unhashable => c.(running := false)
    case NoKey => c
    case Key(k) =>
      if k !in c.pending then c
      else
        var replies := if c.pending[k] == Waiting then c.replies[k := f] else c.replies;
        c.(pending := c.pending - {k}, replies := replies)
  }

  /** A frame without `"id"`: handed to the event handler if one is set,
      otherwise discarded. A handler that raises ends the loop. */
  function ReceiveEvent(c: Conn, f: Object, handler: Object -> bool): (r: Conn)
    ensures !c.hasHandler ==> r == c
    ensures c.hasHandler ==> r.handled == c.handled + [f] && r.running == handler(f)
    ensures r.(handled := c.handled, running := c.running) == c
  {
    if !c.hasHandler then c
    else c.(handled := c.handled + [f], running := handler(f))
  }

  /** One iteration of the receive loop. Once the loop has ended, nothing
      more is read. */
  function Receive(c: Conn, m: Message, handler: Object -> bool): (r: Conn)
    ensures !c.running ==> r == c
    ensures r.running ==> c.running
    ensures (m.WsError? || m.Closed?) ==> !r.running
    ensures c.running && (m.WsError? || m.Closed?) ==> r == c.(running := false)
    ensures m.Other? ==> r == c
    ensures r.counter == c.counter && r.sent == c.sent && r.hasHandler == c.hasHandler
    ensures r.pending.Keys <= c.pending.Keys
  {
    if !c.running then c
    else
      match m
      case Text(f) => if "id" in f then ReceiveResponse(c, f) else ReceiveEvent(c, f, handler)
      case Other => c
      case WsError => c.(running := false)
      case Closed => c.(running := false)
  }

  /** The receive loop over a sequence of inbound messages. */
  function ReceiveAll(c: Conn, ms: seq<Message>, handler: Object -> bool): (r: Conn)
    ensures r.running ==> c.running
    ensures r.counter == c.counter && r.sent == c.sent && r.hasHandler == c.hasHandler
    ensures r.pending.Keys <= c.pending.Keys
    decreases |ms|
  {
    if ms == [] then c else ReceiveAll(Receive(c, ms[0], handler), ms[1..], handler)
  }

  /** Event frames as the websocket delivers them. */
  function Events(fs: seq<Object>): (ms: seq<Message>)
    ensures |ms| == |fs|
    ensures forall i :: 0 <= i < |fs| ==> ms[i] == Text(fs[i])
    decreases |fs|
  {
    if fs == [] then [] else [Text(fs[0])] + Events(fs[1..])
  }

  predicate IsEvent(f: Object)
  {
    "id" !in f
  }

  /** What `send` does with the reply its future was resolved with: an error
      payload raises, otherwise `result` is returned, `{}` when absent. */
  function Unwrap(name: string, reply: Object): (r: Result<Value, CdpError>)
    ensures r.Err? <==> "error" in reply
    ensures r.Err? ==> r.error == CdpError(name, reply["error"])
    ensures r.Ok? && "result" in reply ==> r.value == reply["result"]
    ensures r.Ok? && "result" !in reply ==> r.value == Empty
  {
    if "error" in reply then Err(CdpError(name, reply["error"]))
    else Ok(GetOr(reply, "result", Empty))
  }

  /** What the caller of command `id` has got so far: nothing while its
      future is unresolved, else the unwrapped reply. */
  function Outcome(c: Conn, id: int, name: string): (r: Option<Result<Value, CdpError>>)
    ensures r.Some? <==> id in c.replies
  {
    if id in c.replies then Some(Unwrap(name, c.replies[id])) else None
  }

  /** Every transition a connection can take. */
  datatype Step =
    | SendStep(name: string, params: Option<Object>)
    | ReceiveStep(m: Message)
    | CancelStep(id: int)
    | SetHandlerStep

  function Apply(c: Conn, s: Step, handler: Object -> bool): Conn
  {
    match s
    case SendStep(name, params) => Send(c, name, params).conn
    case ReceiveStep(m) => Receive(c, m, handler)
    case CancelStep(id) => Cancel(c, id)
    case SetHandlerStep => SetHandler(c)
  }

  function Run(c: Conn, steps: seq<Step>, handler: Object -> bool): Conn
    decreases |steps|
  {
    if steps == [] then c else Run(Apply(c, steps[0], handler), steps[1..], handler)
  }
}

=== FILE: correlator_proofs.dfy ===
/**
 Properties of the correlator: the connection invariant is kept by every
 transition, ids are fresh and increasing, a response touches only its own
 entry, a resolved future is never resolved again, and each caller gets
 exactly the reply carrying its own id.
 */
module CorrelatorProofs {
  import opened Wrappers
  import opened Json
  import opened Correlator

  lemma InitialValid()
    ensures Valid(Initial)
  {
  }

  /** A freshly allocated id is neither pending nor resolved, and it exceeds
      every id handed out before it. */
  lemma FreshId(c: Conn, name: string, params: Option<Object>)
    requires Valid(c)
    ensures Send(c, name, params).id !in c.pending
    ensures Send(c, name, params).id !in c.replies
    ensures forall k :: k in c.pending ==> k < Send(c, name, params).id
  {
  }

  /** The frames written so far carry strictly increasing ids. */
  lemma SentIdsIncrease(c: Conn, i: int, j: int)
    requires Valid(c)
    requires 0 <= i < j < |c.sent|
    ensures c.sent[i]["id"].Num? && c.sent[j]["id"].Num?
    ensures c.sent[i]["id"].n < c.sent[j]["id"].n
  {
  }

  lemma SendPreservesValid(c: Conn, name: string, params: Option<Object>)
    requires Valid(c)
    ensures Valid(Send(c, name, params).conn)
  {
    var r := Send(c, name, params);
    NumberedAppend(c.sent, r.msg);
    assert r.conn.replies == c.replies;
    assert forall k :: k in r.conn.pending ==> k in c.pending || k == r.id;
  }

  /** Writing the frame with the next id keeps the log numbered. */
  lemma NumberedAppend(sent: seq<Object>, msg: Object)
    requires Numbered(sent)
    requires "id" in msg && msg["id"] == Num(|sent| + 1) && "method" in msg
    ensures Numbered(sent + [msg])
  {
    forall i | 0 <= i < |sent| + 1
      ensures "id" in (sent + [msg])[i] && (sent + [msg])[i]["id"] == Num(i + 1) && "method" in (sent + [msg])[i]
    {
      if i < |sent| {
        assert (sent + [msg])[i] == sent[i];
      }
    }
  }

  lemma ResponsePreservesValid(c: Conn, f: Object)
    requires Valid(c) && "id" in f
    ensures Valid(ReceiveResponse(c, f))
  {
    match KeyOf(f["id"])
    case Unhashable =>
    case NoKey =>
    case Key(k) =>
      if k in c.pending {
        var r := ReceiveResponse(c, f);
        assert r.pending == c.pending - {k};
        assert r.replies.Keys <= c.replies.Keys + {k};
      }
  }

  lemma ReceivePreservesValid(c: Conn, m: Message, handler: Object -> bool)
    requires Valid(c)
    ensures Valid(Receive(c, m, handler))
  {
    if c.running && m.Text? && "id" in m.frame {
      ResponsePreservesValid(c, m.frame);
    }
  }

  lemma ApplyPreservesValid(c: Conn, s: Step, handler: Object -> bool)
    requires Valid(c)
    ensures Valid(Apply(c, s, handler))
  {
    match s
    case SendStep(name, params) => SendPreservesValid(c, name, params);
    case ReceiveStep(m) => ReceivePreservesValid(c, m, handler);
    case CancelStep(id) =>
    case SetHandlerStep =>
  }

  /** Every reachable connection satisfies the invariant. */
  lemma {:induction false} RunPreservesValid(c: Conn, steps: seq<Step>, handler: Object -> bool)
    requires Valid(c)
    ensures Valid(Run(c, steps, handler))
    decreases |steps|
  {
    if steps != [] {
      ApplyPreservesValid(c, steps[0], handler);
      RunPreservesValid(Apply(c, steps[0], handler), steps[1..], handler);
    }
  }

  /** No cross-delivery: along any run from a fresh connection, the reply
      held by the future of command `k` is a frame whose id is `k`. */
  lemma NoCrossDelivery(steps: seq<Step>, handler: Object -> bool, k: int)
    requires k in Run(Initial, steps, handler).replies
    ensures "id" in Run(Initial, steps, handler).replies[k]
    ensures KeyOf(Run(Initial, steps, handler).replies[k]["id"]) == Key(k)
    ensures 1 <= k <= Run(Initial, steps, handler).counter
  {
    RunPreservesValid(Initial, steps, handler);
  }

  /** A response whose id is pending removes exactly that entry, resolves it
      only when it was still waiting, and changes nothing else. */
  lemma ResponseTouchesOnlyItsEntry(c: Conn, f: Object, handler: Object -> bool, k: int)
    requires c.running && "id" in f && KeyOf(f["id"]) == Key(k) && k in c.pending
    ensures Receive(c, Text(f), handler).pending == c.pending - {k}
    ensures forall j :: j in c.pending && j != k ==>
              j in Receive(c, Text(f), handler).pending && Receive(c, Text(f), handler).pending[j] == c.pending[j]
    ensures c.pending[k] == Waiting ==> Receive(c, Text(f), handler).replies == c.replies[k := f]
    ensures c.pending[k] == Cancelled ==> Receive(c, Text(f), handler).replies == c.replies
    ensures Receive(c, Text(f), handler).(pending := c.pending, replies := c.replies) == c
  {
  }

  /** A response whose id is not pending (unknown, already consumed, a
      string or null) is dropped and the connection is unchanged. */
  lemma UnknownResponseDropped(c: Conn, f: Object, handler: Object -> bool)
    requires "id" in f
    requires KeyOf(f["id"]) == NoKey || (KeyOf(f["id"]).Key? && KeyOf(f["id"]).k !in c.pending)
    ensures Receive(c, Text(f), handler) == c
  {
  }

  /** A response whose id cannot be looked up raises and ends the loop,
      leaving the table as it was. */
  lemma UnhashableResponseEndsLoop(c: Conn, f: Object, handler: Object -> bool)
    requires "id" in f && KeyOf(f["id"]) == Unhashable
    ensures Receive(c, Text(f), handler) == c.(running := false)
  {
  }

  /** A frame without `"id"` never touches the pending table or the
      resolved futures; it reaches the handler exactly when one is set. */
  lemma EventLeavesTableAlone(c: Conn, f: Object, handler: Object -> bool)
    requires c.running && "id" !in f
    ensures Receive(c, Text(f), handler).pending == c.pending
    ensures Receive(c, Text(f), handler).replies == c.replies
    ensures Receive(c, Text(f), handler).counter == c.counter
    ensures c.hasHandler ==> Receive(c, Text(f), handler).handled == c.handled + [f]
    ensures !c.hasHandler ==> Receive(c, Text(f), handler) == c
  {
  }

  /** A resolved future keeps its reply under every later transition. */
  lemma ResolvedOnce(c: Conn, s: Step, handler: Object -> bool, k: int)
    requires Valid(c) && k in c.replies
    ensures k in Apply(c, s, handler).replies
    ensures Apply(c, s, handler).replies[k] == c.replies[k]
  {
    match s
    case SendStep(name, params) =>
    case ReceiveStep(m) =>
      if c.running && m.Text? && "id" in m.frame {
        var f := m.frame;
        var key := KeyOf(f["id"]);
        if key.Key? && key.k in c.pending {
          assert key.k != k;
        }
      }
    case CancelStep(id) =>
    case SetHandlerStep =>
  }

  /** The same along a whole run. */
  lemma {:induction false} ResolvedOnceRun(c: Conn, steps: seq<Step>, handler: Object -> bool, k: int)
    requires Valid(c) && k in c.replies
    ensures k in Run(c, steps, handler).replies
    ensures Run(c, steps, handler).replies[k] == c.replies[k]
    decreases |steps|
  {
    if steps != [] {
      ResolvedOnce(c, steps[0], handler, k);
      ApplyPreservesValid(c, steps[0], handler);
      ResolvedOnceRun(Apply(c, steps[0], handler), steps[1..], handler, k);
    }
  }

  /** The caller of a command that is still waiting gets, from the response
      carrying its id, exactly that response unwrapped. */
  lemma MatchingResponseDelivered(c: Conn, f: Object, handler: Object -> bool, k: int, name: string)
    requires c.running && "id" in f && KeyOf(f["id"]) == Key(k)
    requires k in c.pending && c.pending[k] == Waiting
    ensures Outcome(Receive(c, Text(f), handler), k, name) == Some(Unwrap(name, f))
  {
  }

  /** A command sent on a running connection, answered by a frame with its
      id, returns that frame's `result`, or raises on its `error`. */
  lemma SendThenAnswer(c: Conn, name: string, params: Option<Object>, f: Object, handler: Object -> bool)
    requires Valid(c) && c.running
    requires "id" in f && f["id"] == Num(c.counter + 1)
    ensures Outcome(Receive(Send(c, name, params).conn, Text(f), handler), c.counter + 1, name)
            == Some(Unwrap(name, f))
  {
    var s := Send(c, name, params);
    MatchingResponseDelivered(s.conn, f, handler, s.id, name);
  }

  /** Once the receive loop has ended, nothing it would have read changes
      the connection: pending commands are never resolved. */
  lemma {:induction false} StoppedLoopReadsNothing(c: Conn, ms: seq<Message>, handler: Object -> bool)
    requires !c.running
    ensures ReceiveAll(c, ms, handler) == c
    decreases |ms|
  {
    if ms != [] {
      assert Receive(c, ms[0], handler) == c;
      StoppedLoopReadsNothing(c, ms[1..], handler);
    }
  }

  /** Before a handler is set, event frames are discarded and change nothing. */
  lemma {:induction false} NothingBeforeHandler(c: Conn, fs: seq<Object>, handler: Object -> bool)
    requires !c.hasHandler
    requires forall i :: 0 <= i < |fs| ==> IsEvent(fs[i])
    ensures ReceiveAll(c, Events(fs), handler) == c
    decreases |fs|
  {
    if fs != [] {
      assert Receive(c, Text(fs[0]), handler) == c;
      assert Events(fs)[1..] == Events(fs[1..]);
      NothingBeforeHandler(c, fs[1..], handler);
    }
  }

  /** The receive loop keeps the invariant, whatever it reads. */
  lemma {:induction false} ReceiveAllPreservesValid(c: Conn, ms: seq<Message>, handler: Object -> bool)
    requires Valid(c)
    ensures Valid(ReceiveAll(c, ms, handler))
    decreases |ms|
  {
    if ms != [] {
      ReceivePreservesValid(c, ms[0], handler);
      ReceiveAllPreservesValid(Receive(c, ms[0], handler), ms[1..], handler);
    }
  }
}

=== FILE: evaluation.dfy ===
/**
 The `eval` command (`cmd_eval` in scripts/chromectl.py): the evaluation
 request it sends, and the choice of what it prints from the result of
 `Runtime.evaluate`, with the process exit status that goes with it.
 */
module Evaluation {
  import opened Wrappers
  import opened Json
  import opened Seqs
  import Correlator
  import opened Calls

  /** What the command ends with: the exception details printed with exit
      status 2, a value printed with status 0, or an uncaught Python
      exception (a result that is not shaped as a dictionary). */
  datatype EvalOutput = ExceptionExit(details: Value) | Print(v: Value) | Fault

  /** Parameters of the `Runtime.evaluate` command: the expression, with the
      value returned by value, a returned promise awaited, in REPL mode. */
  function EvaluateParams(expression: string): (p: Object)
    ensures p.Keys == {"expression", "returnByValue", "awaitPromise", "replMode"}
    ensures p["expression"] == Str(expression)
    ensures p["returnByValue"] == Bool(true) && p["awaitPromise"] == Bool(true)
    ensures p["replMode"] == Bool(true)
  {
    map["expression" := Str(expression), "returnByValue" := Bool(true),
        "awaitPromise" := Bool(true), "replMode" := Bool(true)]
  }

  /** How far `eval` has got: the connection, and the outcome once the
      command has finished (`None` while it still awaits a reply). */
  datatype EvalRun = EvalRun(conn: Correlator.Conn, outcome: Option<Result<EvalOutput, Correlator.CdpError>>)

  /** `cmd_eval` on an attached connection whose loop reads `enableReply`
      after `Runtime.enable` is written and `evaluateReply` after
      `Runtime.evaluate` is written. An error reply to `Runtime.enable`
      raises, so `Runtime.evaluate` is never sent. */
  function EvalCommand(c: Correlator.Conn, expression: string, enableReply: Object, evaluateReply: Object,
                       handler: Object -> bool): (r: EvalRun)
    requires Correlator.Valid(c)
    ensures Correlator.Valid(r.conn)
    ensures !Answers(c, enableReply, c.counter + 1) ==>
              r.outcome == None && r.conn.sent == c.sent + [EnableRequest(c.counter + 1)]
    ensures Answers(c, enableReply, c.counter + 1) && "error" in enableReply ==>
              (r.outcome == Some(Err(Correlator.CdpError("Runtime.enable", enableReply["error"])))
               && r.conn.sent == c.sent + [EnableRequest(c.counter + 1)])
    ensures Answers(c, enableReply, c.counter + 1) && "error" !in enableReply ==>
              r.conn.sent == c.sent + [EnableRequest(c.counter + 1), EvaluateRequest(c.counter + 2, expression)]
    ensures Answers(c, enableReply, c.counter + 1) && "error" !in enableReply ==>
              (r.outcome.Some? <==> Answers(c, evaluateReply, c.counter + 2))
    ensures (Answers(c, enableReply, c.counter + 1) && "error" !in enableReply && Answers(c, evaluateReply, c.counter + 2))
              ==> r.outcome == Some(EvalOutcome(evaluateReply))
    ensures r.outcome.Some? ==> r.conn.pending == c.pending
    ensures r.outcome.None? ==> r.conn.counter in r.conn.pending && r.conn.pending[r.conn.counter] == Correlator.Waiting
  {
    var enable := Call(c, "Runtime.enable", None, enableReply, handler);
    match enable.answer
    case None => EvalRun(enable.conn, None)
    case Some(Err(e)) => EvalRun(enable.conn, Some(Err(e)))
    case Some(Ok(_)) =>
      var evaluate := Call(enable.conn, "Runtime.evaluate", Some(EvaluateParams(expression)), evaluateReply, handler);
      AppendPair(c.sent, EnableRequest(c.counter + 1), EvaluateRequest(c.counter + 2, expression));
      match evaluate.answer
      case None => EvalRun(evaluate.conn, None)
      case Some(Err(e)) => EvalRun(evaluate.conn, Some(Err(e)))
      case Some(Ok(result)) => EvalRun(evaluate.conn, Some(Ok(SelectOutput(result))))
  }

  /** `cmd_eval` when the loop reads the event frames `beforeEnable` ahead
      of the `Runtime.enable` reply and `beforeEvaluate` ahead of the
      `Runtime.evaluate` reply. `Runtime.enable` makes Chrome announce its
      execution contexts at once, so such events are the usual case; `eval`
      sets no handler, so they leave the command as if the replies had come
      first. */
  function EvalCommandAfter(c: Correlator.Conn, expression: string, beforeEnable: seq<Object>, enableReply: Object,
                            beforeEvaluate: seq<Object>, evaluateReply: Object, handler: Object -> bool): (r: EvalRun)
    requires Correlator.Valid(c)
    ensures Correlator.Valid(r.conn)
    ensures (&& !c.hasHandler
             && (forall i :: 0 <= i < |beforeEnable| ==> Correlator.IsEvent(beforeEnable[i]))
             && (forall i :: 0 <= i < |beforeEvaluate| ==> Correlator.IsEvent(beforeEvaluate[i])))
            ==> r == EvalCommand(c, expression, enableReply, evaluateReply, handler)
  {
    var enable := CallAfter(c, "Runtime.enable", None, beforeEnable, enableReply, handler);
    match enable.answer
    case None => EvalRun(enable.conn, None)
    case Some(Err(e)) => EvalRun(enable.conn, Some(Err(e)))
    case Some(Ok(_)) =>
      var evaluate := CallAfter(enable.conn, "Runtime.evaluate", Some(EvaluateParams(expression)), beforeEvaluate,
                                evaluateReply, handler);
      assert enable.conn.hasHandler == c.hasHandler;
      match evaluate.answer
      case None => EvalRun(evaluate.conn, None)
      case Some(Err(e)) => EvalRun(evaluate.conn, Some(Err(e)))
      case Some(Ok(result)) => EvalRun(evaluate.conn, Some(Ok(SelectOutput(result))))
  }

  /** The frame `eval` writes first. */
  function EnableRequest(id: nat): Object
  {
    Correlator.Request(id, "Runtime.enable", None)
  }

  /** The frame `eval` writes second. */
  function EvaluateRequest(id: nat, expression: string): Object
  {
    Correlator.Request(id, "Runtime.evaluate", Some(EvaluateParams(expression)))
  }

  /** The printed choice, as written: an object result with a `value`
      prints the value; any other result with a `value` prints the value;
      otherwise the whole remote object is printed. */
  function SelectOutput(result: Value): (r: EvalOutput)
    ensures r.ExceptionExit? <==> result.Obj? && "exceptionDetails" in result.fields
    ensures r.ExceptionExit? ==> r.details == result.fields["exceptionDetails"]
    ensures !result.Obj? ==> r == Fault
  {
    match result
    case Obj(m) =>
      if "exceptionDetails" in m then ExceptionExit(m["exceptionDetails"])
      else
        (match GetOr(m, "result", Empty)
         case Obj(r) =>
           if Get(r, "type") == Str("object") && "value" in r then Print(r["value"])
           else if "value" in r then Print(r["value"])
           else Print(Obj(r))
         case _ => Fault)
    case _ => Fault
  }

  /** A remote object without exception details prints its `value` when it
      has one and the whole remote object when it has none; the absence of
      `result` reads as the empty object. */
  lemma PrintsValueOrObject(m: Object)
    requires "exceptionDetails" !in m
    ensures "result" !in m ==> SelectOutput(Obj(m)) == Print(Empty)
    ensures "result" in m && m["result"].Obj? && "value" in m["result"].fields ==>
              SelectOutput(Obj(m)) == Print(m["result"].fields["value"])
    ensures "result" in m && m["result"].Obj? && "value" !in m["result"].fields ==>
              SelectOutput(Obj(m)) == Print(m["result"])
    ensures "result" in m && !m["result"].Obj? ==> SelectOutput(Obj(m)) == Fault
  {
  }

  /** The `type == "object"` test does not matter: a remote object with a
      `value` prints that value whatever its `type` says. */
  lemma TypeIsIrrelevant(m: Object, r: Object, t: Value)
    requires "exceptionDetails" !in m && "value" in r
    ensures SelectOutput(Obj(m["result" := Obj(r["type" := t])])) == Print(r["value"])
  {
  }

  /** The exit status: 2 for exception details (and for a CDP error on
      either command), 0 when a value is printed, 1 for an uncaught fault. */
  function ExitStatus(o: Result<EvalOutput, Correlator.CdpError>): (code: nat)
    ensures code == 0 <==> o.Ok? && o.value.Print?
    ensures code == 2 <==> o.Err? || o.value.ExceptionExit?
    ensures o.Ok? && o.value.Fault? ==> code == 1
  {
    match o
    case Err(_) => 2
    case Ok(ExceptionExit(_)) => 2
    case Ok(Print(_)) => 0
    case Ok(Fault) => 1
  }

  /** The whole command after the evaluate reply arrives: unwrap the reply,
      then select what to print. */
  function EvalOutcome(reply: Object): (o: Result<EvalOutput, Correlator.CdpError>)
    ensures "error" in reply ==> o == Err(Correlator.CdpError("Runtime.evaluate", reply["error"]))
    ensures "error" !in reply ==> o == Ok(SelectOutput(GetOr(reply, "result", Empty)))
  {
    match Correlator.Unwrap("Runtime.evaluate", reply)
    case Ok(result) => Ok(SelectOutput(result))
    case Err(e) => Err(e)
  }

  /** Both commands answered without error by frames carrying their ids. */
  predicate BothAnswered(c: Correlator.Conn, enableReply: Object, evaluateReply: Object)
  {
    && Answers(c, enableReply, c.counter + 1) && "error" !in enableReply
    && Answers(c, evaluateReply, c.counter + 2) && "error" !in evaluateReply
  }

  /** An evaluation whose remote object carries a `value` prints that value
      and exits with status 0, e.g. for the reply
      `{"id": n, "result": {"result": {"value": v}}}`. */
  lemma EvalPrintsValue(c: Correlator.Conn, expression: string, enableReply: Object, evaluateReply: Object,
                        handler: Object -> bool, m: Object, v: Value)
    requires Correlator.Valid(c) && BothAnswered(c, enableReply, evaluateReply)
    requires "result" in evaluateReply && evaluateReply["result"] == Obj(m) && "exceptionDetails" !in m
    requires "result" in m && m["result"].Obj? && "value" in m["result"].fields && m["result"].fields["value"] == v
    ensures EvalCommand(c, expression, enableReply, evaluateReply, handler).outcome == Some(Ok(Print(v)))
    ensures ExitStatus(EvalCommand(c, expression, enableReply, evaluateReply, handler).outcome.value) == 0
  {
    PrintsValueOrObject(m);
  }

  /** An evaluation that threw prints its exception details and exits with
      status 2. */
  lemma EvalExceptionExits(c: Correlator.Conn, expression: string, enableReply: Object, evaluateReply: Object,
                           handler: Object -> bool, m: Object)
    requires Correlator.Valid(c) && BothAnswered(c, enableReply, evaluateReply)
    requires "result" in evaluateReply && evaluateReply["result"] == Obj(m) && "exceptionDetails" in m
    ensures EvalCommand(c, expression, enableReply, evaluateReply, handler).outcome == Some(Ok(ExceptionExit(m["exceptionDetails"])))
    ensures ExitStatus(EvalCommand(c, expression, enableReply, evaluateReply, handler).outcome.value) == 2
  {
  }

  /** An error reply to `Runtime.enable` ends the command with a CDP error,
      exit status 2, and `Runtime.evaluate` is never written. */
  lemma EnableErrorStopsEval(c: Correlator.Conn, expression: string, e: Value, evaluateReply: Object,
                             handler: Object -> bool)
    requires Correlator.Valid(c) && c.running
    ensures var r := EvalCommand(c, expression, map["id" := Num(c.counter + 1), "error" := e], evaluateReply, handler);
            r.outcome == Some(Err(Correlator.CdpError("Runtime.enable", e))) && ExitStatus(r.outcome.value) == 2
            && r.conn.sent == c.sent + [EnableRequest(c.counter + 1)]
  {
  }
}

=== FILE: json.dfy ===
/**
 A decoded JSON value as the Python `json` module hands it to the program:
 objects are dictionaries from strings to values, arrays are lists. Numbers
 are integers only (the protocol fields the core inspects are integral).

 The module also carries the pieces of Python dictionary behaviour the
 core relies on: `d.get(k, default)` and truthiness.
 */
module Json {

  datatype Value =
    | Null
    | Bool(b: bool)
    | Num(n: int)
    | Str(s: string)
    | Arr(items: seq<Value>)
    | Obj(fields: map<string, Value>)

  /** A JSON object: what every protocol frame and record is. */
  type Object = map<string, Value>

  /** The empty object `{}`. */
  const Empty: Value := Obj(map[])

  /** Python `d.get(key, default)` on a dictionary. */
  function GetOr(d: Object, key: string, default: Value): (r: Value)
    ensures key in d ==> r == d[key]
    ensures key !in d ==> r == default
  {
    if key in d then d[key] else default
  }

  /** Python `d.get(key)`: a missing key reads as `None`. */
  function Get(d: Object, key: string): (r: Value)
    ensures key in d ==> r == d[key]
    ensures key !in d ==> r == Null
  {
    GetOr(d, key, Null)
  }

  /** Python truthiness of a decoded JSON value: `None`, `False`, `0`, and
      empty strings, lists and dictionaries are false; everything else is true. */
  predicate Truthy(v: Value)
  {
    match v
    case Null => false
    case Bool(b) => b
    case Num(n) => n != 0
    case Str(s) => |s| > 0
    case Arr(xs) => |xs| > 0
    case Obj(m) => |m| > 0
  }

  /** Python `a or b`: the first operand when it is truthy, else the second. */
  function Or(a: Value, b: Value): (r: Value)
    ensures Truthy(a) ==> r == a
    ensures !Truthy(a) ==> r == b
  {
    if Truthy(a) then a else b
  }
}

=== FILE: processes.dfy ===
/**
 Selection of the processes the `stop` command signals (`cmd_stop` in
 scripts/chromectl.py): every line of the `ps aux` listing that mentions
 both "Google Chrome" and "chromectl" and whose second field is an integer
 yields that integer as a PID, paired with the line, in listing order.
 */
module Processes {
  import opened Wrappers
  import opened Text

  const ChromeMarker: string := "Google Chrome"
  const ToolMarker: string := "chromectl"

  /** A process to stop: its PID and the listing line it came from. */
  datatype Victim = Victim(pid: nat, line: string)

  /** The line belongs to a Chrome started with a chromectl profile. */
  predicate Selected(line: string)
  {
    Contains(line, ChromeMarker) && Contains(line, ToolMarker)
  }

  /** The PID a listing line yields: a selected line with at least two
      fields whose second field parses as an integer. */
  function PidOf(line: string): (r: Option<nat>)
    ensures r.Some? ==> Selected(line) && |Fields(line)| > 1 && ParseNat(Fields(line)[1]) == r
    ensures Selected(line) && |Fields(line)| > 1 && ParseNat(Fields(line)[1]).Some? ==> r.Some?
  {
    if Selected(line) then
      var parts := Fields(line);
      if |parts| > 1 then ParseNat(parts[1]) else None
    else None
  }

  /** The loop over the listing's lines: lines without a PID are skipped. */
  function VictimsOf(lines: seq<string>): (r: seq<Victim>)
    ensures |r| <= |lines|
    ensures forall v :: v in r ==> v.line in lines && PidOf(v.line) == Some(v.pid)
    ensures forall i :: 0 <= i < |lines| && PidOf(lines[i]).Some? ==>
              Victim(PidOf(lines[i]).value, lines[i]) in r
    decreases |lines|
  {
    if lines == [] then []
    else
      var rest := VictimsOf(lines[1..]);
      assert forall i :: 1 <= i < |lines| ==> lines[i] == lines[1..][i - 1];
      match PidOf(lines[0])
      case Some(pid) => [Victim(pid, lines[0])] + rest
      case None => rest
  }

  /** The processes to stop for a whole `ps aux` output. */
  function PidsToStop(psOutput: string): (r: seq<Victim>)
    ensures forall v :: v in r ==> v.line in SplitLines(psOutput) && PidOf(v.line) == Some(v.pid)
    ensures forall l :: l in SplitLines(psOutput) && PidOf(l).Some? ==> Victim(PidOf(l).value, l) in r
  {
    VictimsOf(SplitLines(psOutput))
  }

  /** Selection keeps listing order: the victims of consecutive runs of lines
      are the concatenation of each run's victims. */
  lemma {:induction false} VictimsAppend(a: seq<string>, b: seq<string>)
    ensures VictimsOf(a + b) == VictimsOf(a) + VictimsOf(b)
    decreases |a|
  {
    if a == [] {
      assert a + b == b;
    } else {
      assert (a + b)[1..] == a[1..] + b;
      VictimsAppend(a[1..], b);
    }
  }

  /** The PID of a selected line is the integer written in its second
      field, however many whitespace characters pad the columns. */
  lemma SecondFieldIsPid(user: string, gap: string, pid: nat, gap': string, command: string)
    requires |user| > 0 && NoSpaces(user)
    requires |gap| > 0 && Blank(gap) && |gap'| > 0 && Blank(gap')
    requires |ShowNat(pid)| <= IntMaxStrDigits
    requires Selected(user + gap + ShowNat(pid) + gap' + command)
    ensures PidOf(user + gap + ShowNat(pid) + gap' + command) == Some(pid)
  {
    var line := user + gap + ShowNat(pid) + gap' + command;
    NoSpacesMeans(ShowNat(pid));
    FieldsStartWith(user, gap, ShowNat(pid), gap', command);
    ParseShow(pid);
    assert |Fields(line)| > 1 && ParseNat(Fields(line)[1]) == Some(pid);
  }

  /** The first two fields of `user pid rest`, with the columns separated
      by runs of whitespace, are `user` and `pid`. */
  lemma FieldsStartWith(user: string, gap: string, p: string, gap': string, command: string)
    requires |user| > 0 && NoSpaces(user)
    requires |gap| > 0 && Blank(gap) && |gap'| > 0 && Blank(gap')
    requires |p| > 0 && NoSpaces(p)
    ensures |Fields(user + gap + p + gap' + command)| > 1
    ensures Fields(user + gap + p + gap' + command)[0] == user
    ensures Fields(user + gap + p + gap' + command)[1] == p
  {
    var after := p + (gap' + command);
    var tail := gap + after;
    var line := user + tail;
    assert line == user + gap + p + gap' + command;
    var rest := Fields(gap' + command);
    assert (gap' + command)[0] == gap'[0];
    FieldsOfWordThen(p, gap' + command);
    assert Fields(after) == [p] + rest;
    FieldsSkipBlank(gap, after);
    assert Fields(tail) == [p] + rest;
    assert tail[0] == gap[0];
    FieldsOfWordThen(user, tail);
    assert Fields(line) == [user] + ([p] + rest);
  }
}

=== FILE: seqs.dfy ===
/**
 Small facts about appending and slicing sequences, stated once for any
 element type so the proofs about lines, records and messages do not pay
 for them at their own element types.
 */
module Seqs {

  lemma AppendHead<T>(a: seq<T>, s: seq<T>)
    requires |s| > 0
    ensures a + [s[0]] + s[1..] == a + s
  {
    assert [s[0]] + s[1..] == s;
  }

  lemma ConsAppend<T>(x: seq<T>, t: seq<T>)
    requires x != []
    ensures [x[0]] + (x[1..] + t) == x + t
  {
    assert [x[0]] + x[1..] == x;
  }

  lemma AppendPair<T>(s: seq<T>, a: T, b: T)
    ensures s + [a] + [b] == s + [a, b]
  {
  }

  lemma AppendAssoc<T>(x: seq<T>, y: seq<T>, z: seq<T>)
    ensures x + (y + z) == x + y + z
  {
  }

  lemma AppendSlices<T>(a: seq<T>, b: seq<T>, w: nat)
    requires w <= |b|
    ensures (a + b)[..|a|] == a && (a + b)[|a| + w..] == b[w..]
  {
  }
}

=== FILE: targets.dfy ===
/**
 Target lookup (`find_ws_for_target` in scripts/chromectl.py): scan the
 discovery list in order and return the websocket URL of the first target
 whose `id` is the requested one.
 */
module Targets {
  import opened Wrappers
  import opened Json

  /** How the lookup fails: no target has the id (the CDP error the program
      reports), the matching target has no `webSocketDebuggerUrl` (a
      `KeyError`), or an entry scanned is not an object (an
      `AttributeError` from `t.get`). */
  datatype LookupError = NotFound(targetId: string) | MissingUrl | NotAnObject

  /** The entry is a target record whose `id` is `targetId`. */
  predicate Matches(t: Value, targetId: string)
  {
    t.Obj? && Get(t.fields, "id") == Str(targetId)
  }

  /** The scan passes over the entry: a target record with another id. */
  predicate PassesOver(t: Value, targetId: string)
  {
    t.Obj? && Get(t.fields, "id") != Str(targetId)
  }

  const UrlKey: string := "webSocketDebuggerUrl"

  function FindWsForTarget(targets: seq<Value>, targetId: string): (r: Result<Value, LookupError>)
    ensures r == Err(NotFound(targetId)) <==> forall i :: 0 <= i < |targets| ==> PassesOver(targets[i], targetId)
    ensures r.Ok? ==>
      exists i :: 0 <= i < |targets| && Matches(targets[i], targetId)
        && (forall j :: 0 <= j < i ==> PassesOver(targets[j], targetId))
        && UrlKey in targets[i].fields && r.value == targets[i].fields[UrlKey]
    ensures r == Err(MissingUrl) ==>
      exists i :: 0 <= i < |targets| && Matches(targets[i], targetId) && UrlKey !in targets[i].fields
        && (forall j :: 0 <= j < i ==> PassesOver(targets[j], targetId))
    ensures r == Err(NotAnObject) ==>
      exists i :: 0 <= i < |targets| && !targets[i].Obj?
        && (forall j :: 0 <= j < i ==> PassesOver(targets[j], targetId))
    decreases |targets|
  {
    if targets == [] then Err(NotFound(targetId))
    else
      match targets[0]
      case Obj(t) =>
        if Get(t, "id") == Str(targetId) then
          if UrlKey in t then Ok(t[UrlKey]) else Err(MissingUrl)
        else
          var rest := FindWsForTarget(targets[1..], targetId);
          assert forall i :: 1 <= i < |targets| ==> targets[i] == targets[1..][i - 1];
          rest
      case _ => Err(NotAnObject)
  }

  /** The first matching target decides the result: with a match among
      `targets`, whatever follows them does not matter. */
  lemma {:induction false} FirstMatchDecides(targets: seq<Value>, later: seq<Value>, targetId: string, i: int)
    requires 0 <= i < |targets| && Matches(targets[i], targetId)
    ensures FindWsForTarget(targets + later, targetId) == FindWsForTarget(targets, targetId)
    decreases |targets|
  {
    if targets[0].Obj? && !Matches(targets[0], targetId) {
      assert (targets + later)[1..] == targets[1..] + later;
      FirstMatchDecides(targets[1..], later, targetId, i - 1);
    }
  }

  /** A matching target whose predecessors are all other targets yields
      its own URL, whatever comes after it. */
  lemma {:induction false} FindsFirstMatch(targets: seq<Value>, targetId: string, i: int)
    requires 0 <= i < |targets| && Matches(targets[i], targetId) && UrlKey in targets[i].fields
    requires forall j :: 0 <= j < i ==> PassesOver(targets[j], targetId)
    ensures FindWsForTarget(targets, targetId) == Ok(targets[i].fields[UrlKey])
    decreases |targets|
  {
    if i > 0 {
      assert PassesOver(targets[0], targetId);
      FindsFirstMatch(targets[1..], targetId, i - 1);
    }
  }
}

=== FILE: text.dfy ===
/**
 The Python string operations the `stop` command relies on, over strings
 as sequences of characters: substring test (`sub in s`), `str.splitlines()`,
 `str.split()` with no argument, and `int()` restricted to ASCII decimal
 digits.
 */
module Text {
  import opened Wrappers
  import opened Seqs

  /** Characters for which Python's `str.isspace()` holds: the separators
      `str.split()` splits on. */
  predicate IsSpace(ch: char)
  {
    || ch == ' ' || ch == '\t' || ch == '\n' || ch == '\r'
    || ch == '\U{0B}' || ch == '\U{0C}'
    || ('\U{1C}' <= ch <= '\U{1F}')
    || ch == '\U{85}' || ch == '\U{A0}' || ch == '\U{1680}'
    || ('\U{2000}' <= ch <= '\U{200A}')
    || ch == '\U{2028}' || ch == '\U{2029}' || ch == '\U{202F}' || ch == '\U{205F}' || ch == '\U{3000}'
  }

  /** Characters `str.splitlines()` treats as line boundaries (`\r\n` counts
      as one boundary). */
  predicate IsLineBreak(ch: char)
  {
    || ch == '\n' || ch == '\r' || ch == '\U{0B}' || ch == '\U{0C}'
    || ch == '\U{1C}' || ch == '\U{1D}' || ch == '\U{1E}'
    || ch == '\U{85}' || ch == '\U{2028}' || ch == '\U{2029}'
  }

  predicate IsDigit(ch: char)
  {
    '0' <= ch <= '9'
  }

  // ---------------------------------------------------------------- substrings

  /** `sub` occurs in `s` starting at position `i`. */
  predicate OccursAt(s: string, sub: string, i: int)
  {
    0 <= i <= |s| - |sub| && s[i..i + |sub|] == sub
  }

  /** `sub in s`. */
  function Contains(s: string, sub: string): (b: bool)
    ensures b <==> exists i :: OccursAt(s, sub, i)
    decreases |s|
  {
    if |sub| <= |s| && s[..|sub|] == sub then
      assert OccursAt(s, sub, 0);
      true
    else if s == [] then
      false
    else
      var b := Contains(s[1..], sub);
      OccursInTail(s, sub);
      b
  }

  /** Past position 0, `sub` occurs in `s` exactly where it occurs in `s[1..]`
      one place earlier. */
  lemma OccursInTail(s: string, sub: string)
    requires s != [] && !OccursAt(s, sub, 0)
    ensures (exists i :: OccursAt(s, sub, i)) <==> exists i :: OccursAt(s[1..], sub, i)
  {
    if exists i :: OccursAt(s[1..], sub, i) {
      var i :| OccursAt(s[1..], sub, i);
      assert s[1..][i..i + |sub|] == s[i + 1..i + 1 + |sub|];
      assert OccursAt(s, sub, i + 1);
    }
    if exists i :: OccursAt(s, sub, i) {
      var i :| OccursAt(s, sub, i);
      assert s[1..][i - 1..i - 1 + |sub|] == s[i..i + |sub|];
      assert OccursAt(s[1..], sub, i - 1);
    }
  }

  // ------------------------------------------------------------------- helpers

  /** No character of `t` is a line boundary. */
  predicate NoBreaks(t: string)
    decreases |t|
  {
    t == [] || (!IsLineBreak(t[0]) && NoBreaks(t[1..]))
  }

  /** No character of `t` is whitespace. */
  predicate NoSpaces(t: string)
    decreases |t|
  {
    t == [] || (!IsSpace(t[0]) && NoSpaces(t[1..]))
  }

  lemma {:induction false} NoBreaksMeans(t: string)
    ensures NoBreaks(t) <==> forall i :: 0 <= i < |t| ==> !IsLineBreak(t[i])
    decreases |t|
  {
    if t != [] {
      NoBreaksMeans(t[1..]);
      assert forall i :: 1 <= i < |t| ==> t[i] == t[1..][i - 1];
    }
  }

  lemma {:induction false} NoSpacesMeans(t: string)
    ensures NoSpaces(t) <==> forall i :: 0 <= i < |t| ==> !IsSpace(t[i])
    decreases |t|
  {
    if t != [] {
      NoSpacesMeans(t[1..]);
      assert forall i :: 1 <= i < |t| ==> t[i] == t[1..][i - 1];
    }
  }

  /** Concatenation of a list of strings. */
  function Concat(parts: seq<string>): string
    decreases |parts|
  {
    if parts == [] then [] else parts[0] + Concat(parts[1..])
  }

  /** The characters of `s` that are not line boundaries. */
  function DropBreaks(s: string): string
    decreases |s|
  {
    if s == [] then [] else (if IsLineBreak(s[0]) then [] else [s[0]]) + DropBreaks(s[1..])
  }

  /** The characters of `s` that are not whitespace. */
  function DropSpaces(s: string): string
    decreases |s|
  {
    if s == [] then [] else (if IsSpace(s[0]) then [] else [s[0]]) + DropSpaces(s[1..])
  }

  lemma {:induction false} DropBreaksAppend(a: string, b: string)
    ensures DropBreaks(a + b) == DropBreaks(a) + DropBreaks(b)
    decreases |a|
  {
    if a == [] {
      assert a + b == b;
    } else {
      assert (a + b)[1..] == a[1..] + b;
      DropBreaksAppend(a[1..], b);
    }
  }

  lemma {:induction false} DropSpacesAppend(a: string, b: string)
    ensures DropSpaces(a + b) == DropSpaces(a) + DropSpaces(b)
    decreases |a|
  {
    if a == [] {
      assert a + b == b;
    } else {
      assert (a + b)[1..] == a[1..] + b;
      DropSpacesAppend(a[1..], b);
    }
  }

  lemma {:induction false} DropBreaksNone(s: string)
    requires NoBreaks(s)
    ensures DropBreaks(s) == s
    decreases |s|
  {
    if s != [] {
      DropBreaksNone(s[1..]);
    }
  }

  lemma {:induction false} DropSpacesNone(s: string)
    requires NoSpaces(s)
    ensures DropSpaces(s) == s
    decreases |s|
  {
    if s != [] {
      DropSpacesNone(s[1..]);
    }
  }

  // ---------------------------------------------------------------- splitlines

  /** Length of the text before the first line boundary. */
  function LineLength(s: string): (n: nat)
    ensures n <= |s|
    ensures NoBreaks(s[..n])
    ensures n < |s| ==> IsLineBreak(s[n])
    decreases |s|
  {
    if s == [] || IsLineBreak(s[0]) then 0
    else
      var m := LineLength(s[1..]);
      assert s[..1 + m][1..] == s[1..][..m];
      1 + m
  }

  /** `str.splitlines()`: the lines of `s` without their boundaries; a final
      boundary does not start an empty last line. */
  function SplitLines(s: string): (lines: seq<string>)
    ensures forall k :: 0 <= k < |lines| ==> NoBreaks(lines[k])
    ensures |lines| <= |s|
    decreases |s|
  {
    if s == [] then []
    else
      var n := LineLength(s);
      if n == |s| then
        assert s[..n] == s;
        [s]
      else
        var rest := SplitLines(s[n + BreakWidth(s, n)..]);
        assert ([s[..n]] + rest)[1..] == rest;
        [s[..n]] + rest
  }

  /** Width of the line boundary at `n`: two for `\r\n`, else one. */
  function BreakWidth(s: string, n: nat): (w: nat)
    requires n < |s|
    ensures 1 <= w <= 2 && n + w <= |s|
  {
    if s[n] == '\r' && n + 1 < |s| && s[n + 1] == '\n' then 2 else 1
  }

  /** Splitting loses only the line boundaries. */
  lemma {:induction false} SplitLinesKeepsText(s: string)
    ensures Concat(SplitLines(s)) == DropBreaks(s)
    decreases |s|
  {
    if s != [] {
      var n := LineLength(s);
      if n == |s| {
        assert s[..n] == s;
        DropBreaksNone(s);
        ConcatCons(s, []);
      } else {
        var w := BreakWidth(s, n);
        var rest := s[n + w..];
        SplitLinesKeepsText(rest);
        DropBreaksOfLine(s, n, w);
        assert SplitLines(s) == [s[..n]] + SplitLines(rest);
        ConcatCons(s[..n], SplitLines(rest));
      }
    }
  }

  lemma ConcatCons(x: string, xs: seq<string>)
    ensures Concat([x] + xs) == x + Concat(xs)
  {
    assert ([x] + xs)[0] == x && ([x] + xs)[1..] == xs;
  }

  /** Dropping boundaries from a line and its boundary leaves the line. */
  lemma DropBreaksOfLine(s: string, n: nat, w: nat)
    requires n < |s| && n == LineLength(s) && w == BreakWidth(s, n)
    ensures DropBreaks(s) == s[..n] + DropBreaks(s[n + w..])
  {
    assert s == s[..n] + s[n..];
    DropBreaksAppend(s[..n], s[n..]);
    DropBreaksNone(s[..n]);
    DropLeadingBreak(s[n..]);
    assert s[n..][1..] == s[n + 1..];
    if w == 2 {
      DropLeadingBreak(s[n + 1..]);
      assert s[n + 1..][1..] == s[n + w..];
    }
  }

  lemma DropLeadingBreak(t: string)
    requires t != [] && IsLineBreak(t[0])
    ensures DropBreaks(t) == DropBreaks(t[1..])
  {
  }

  /** Lines written one per row, each ended by a newline, split back into
      the same lines. */
  lemma {:induction false} SplitLinesOfRows(lines: seq<string>)
    requires forall k :: 0 <= k < |lines| ==> NoBreaks(lines[k])
    ensures SplitLines(Rows(lines)) == lines
    decreases |lines|
  {
    if lines != [] {
      assert Rows(lines) == lines[0] + ("\n" + Rows(lines[1..]));
      SplitLinesOfRow(lines[0], Rows(lines[1..]));
      SplitLinesOfRows(lines[1..]);
      assert [lines[0]] + lines[1..] == lines;
    }
  }

  /** A boundary-free line ended by a newline is the first line. */
  lemma SplitLinesOfRow(l: string, rest: string)
    requires NoBreaks(l)
    ensures SplitLines(l + ("\n" + rest)) == [l] + SplitLines(rest)
  {
    assert l + ("\n" + rest) == l + "\n" + rest;
    SplitLinesOfLine(l, "\n", rest);
  }

  /** Each line followed by a newline. */
  function Rows(lines: seq<string>): string
    decreases |lines|
  {
    if lines == [] then [] else lines[0] + "\n" + Rows(lines[1..])
  }

  lemma {:induction false} LineLengthOf(l: string, rest: string)
    requires NoBreaks(l)
    requires rest != [] && IsLineBreak(rest[0])
    ensures LineLength(l + rest) == |l|
    decreases |l|
  {
    if l == [] {
      assert l + rest == rest;
    } else {
      assert (l + rest)[1..] == l[1..] + rest;
      LineLengthOf(l[1..], rest);
    }
  }

  /** A line boundary as `str.splitlines()` reads it: one boundary
      character, or `\r\n`. */
  predicate Terminator(t: string)
  {
    t == "\r\n" || (|t| == 1 && IsLineBreak(t[0]))
  }

  /** Lines each followed by its own terminator. */
  function Terminated(lines: seq<string>, ends: seq<string>): string
    requires |lines| == |ends|
    decreases |lines|
  {
    if lines == [] then [] else lines[0] + ends[0] + Terminated(lines[1..], ends[1..])
  }

  /** Boundary-free lines with terminators, where a lone `\r` is never
      followed by a `\n` that would turn it into `\r\n`. */
  predicate WellTerminated(lines: seq<string>, ends: seq<string>)
  {
    && |lines| == |ends|
    && (forall k :: 0 <= k < |lines| ==> NoBreaks(lines[k]) && Terminator(ends[k]))
    && (forall k :: 0 <= k < |lines| - 1 && ends[k] == "\r" ==> lines[k + 1] != [] || ends[k + 1][0] != '\n')
  }

  /** Terminated lines followed by an unterminated last line split back into
      exactly those lines; an empty last part adds no line. */
  lemma {:induction false} SplitLinesOfTerminated(lines: seq<string>, ends: seq<string>, last: string)
    requires WellTerminated(lines, ends) && NoBreaks(last)
    ensures SplitLines(Terminated(lines, ends) + last) == lines + (if last == [] then [] else [last])
    decreases |lines|
  {
    if lines == [] {
      assert Terminated(lines, ends) + last == last;
      SplitLinesOfLast(last);
    } else {
      var rest := Terminated(lines[1..], ends[1..]) + last;
      WellTerminatedTail(lines, ends);
      NoSpuriousCrLf(lines, ends, last);
      assert Terminated(lines, ends) + last == lines[0] + ends[0] + rest;
      SplitLinesOfLine(lines[0], ends[0], rest);
      SplitLinesOfTerminated(lines[1..], ends[1..], last);
      ConsAppend(lines, if last == [] then [] else [last]);
    }
  }

  lemma WellTerminatedTail(lines: seq<string>, ends: seq<string>)
    requires WellTerminated(lines, ends) && lines != []
    ensures WellTerminated(lines[1..], ends[1..])
  {
    assert forall k :: 0 <= k < |lines| - 1 ==> lines[1..][k] == lines[k + 1] && ends[1..][k] == ends[k + 1];
  }

  /** What follows the first terminator never starts with a `\n` that a lone
      `\r` would absorb. */
  lemma NoSpuriousCrLf(lines: seq<string>, ends: seq<string>, last: string)
    requires WellTerminated(lines, ends) && NoBreaks(last) && lines != []
    ensures var rest := Terminated(lines[1..], ends[1..]) + last;
      ends[0] == "\r" && rest != [] ==> rest[0] != '\n'
  {
    var rest := Terminated(lines[1..], ends[1..]) + last;
    if ends[0] == "\r" && rest != [] {
      if |lines| > 1 {
        assert lines[1..][1..] == lines[2..] && ends[1..][1..] == ends[2..];
        assert rest == lines[1] + ends[1] + (Terminated(lines[2..], ends[2..]) + last);
      } else {
        assert rest == last;
      }
    }
  }

  /** A line with its terminator comes off the front as the first line. */
  lemma SplitLinesOfLine(l: string, t: string, rest: string)
    requires NoBreaks(l) && Terminator(t)
    requires t == "\r" && rest != [] ==> rest[0] != '\n'
    ensures SplitLines(l + t + rest) == [l] + SplitLines(rest)
  {
    var u := t + rest;
    assert l + t + rest == l + u;
    LineLengthOf(l, u);
    BreakWidthOf(l, t, rest);
    AppendSlices(l, u, |t|);
    assert u[|t|..] == rest;
  }

  /** The boundary after a boundary-free line is as wide as its terminator. */
  lemma BreakWidthOf(l: string, t: string, rest: string)
    requires Terminator(t)
    requires t == "\r" && rest != [] ==> rest[0] != '\n'
    ensures BreakWidth(l + (t + rest), |l|) == |t|
  {
    var s := l + (t + rest);
    assert s[|l|] == t[0];
    if t == "\r\n" {
      assert s[|l| + 1] == '\n';
    } else if |l| + 1 < |s| {
      assert s[|l| + 1] == rest[0];
    }
  }

  /** An unterminated line is the only line. */
  lemma SplitLinesOfLast(l: string)
    requires NoBreaks(l)
    ensures SplitLines(l) == if l == [] then [] else [l]
  {
    if l != [] {
      NoBreaksMeans(l);
      assert l[..|l|] == l;
    }
  }

  // --------------------------------------------------------------------- split

  /** Length of the leading run of non-whitespace characters. */
  function WordLength(s: string): (n: nat)
    ensures n <= |s|
    ensures NoSpaces(s[..n])
    ensures n < |s| ==> IsSpace(s[n])
    decreases |s|
  {
    if s == [] || IsSpace(s[0]) then 0
    else
      var m := WordLength(s[1..]);
      assert s[..1 + m][1..] == s[1..][..m];
      1 + m
  }

  /** `str.split()` with no separator: the maximal runs of non-whitespace
      characters, in order; leading, trailing and repeated whitespace yield
      no empty fields. */
  function Fields(s: string): (parts: seq<string>)
    ensures forall k :: 0 <= k < |parts| ==> |parts[k]| > 0 && NoSpaces(parts[k])
    ensures Concat(parts) == DropSpaces(s)
    decreases |s|
  {
    if s == [] then []
    else if IsSpace(s[0]) then
      Fields(s[1..])
    else
      var n := WordLength(s);
      var rest := Fields(s[n..]);
      assert s == s[..n] + s[n..];
      DropSpacesAppend(s[..n], s[n..]);
      DropSpacesNone(s[..n]);
      assert ([s[..n]] + rest)[1..] == rest;
      [s[..n]] + rest
  }

  /** A word followed by whitespace or nothing is the first field. */
  lemma FieldsOfWordThen(w: string, rest: string)
    requires |w| > 0 && NoSpaces(w)
    requires rest == [] || IsSpace(rest[0])
    ensures Fields(w + rest) == [w] + Fields(rest)
  {
    WordLengthOf(w, rest);
    var s := w + rest;
    assert s[0] == w[0];
    assert s[..|w|] == w && s[|w|..] == rest;
  }

  /** Leading whitespace yields no field. */
  lemma FieldsSkipSpace(ch: char, rest: string)
    requires IsSpace(ch)
    ensures Fields([ch] + rest) == Fields(rest)
  {
    assert ([ch] + rest)[1..] == rest;
  }

  /** A run of whitespace characters. */
  predicate Blank(g: string)
  {
    forall i :: 0 <= i < |g| ==> IsSpace(g[i])
  }

  /** A leading run of whitespace yields no field. */
  lemma {:induction false} FieldsSkipBlank(g: string, rest: string)
    requires Blank(g)
    ensures Fields(g + rest) == Fields(rest)
    decreases |g|
  {
    if g != [] {
      assert g + rest == [g[0]] + (g[1..] + rest);
      FieldsSkipSpace(g[0], g[1..] + rest);
      FieldsSkipBlank(g[1..], rest);
    } else {
      assert g + rest == rest;
    }
  }

  /** Non-empty words joined by single spaces split back into the same
      words: the fields are maximal runs. */
  lemma {:induction false} FieldsOfJoined(words: seq<string>)
    requires forall k :: 0 <= k < |words| ==> |words[k]| > 0 && NoSpaces(words[k])
    ensures Fields(Spaced(words)) == words
    decreases |words|
  {
    if words != [] {
      var w := words[0];
      if |words| == 1 {
        assert Spaced(words) == w + [];
        FieldsOfWordThen(w, []);
      } else {
        var more := Spaced(words[1..]);
        assert Spaced(words) == w + ([' '] + more);
        FieldsOfWordThen(w, [' '] + more);
        FieldsSkipSpace(' ', more);
        FieldsOfJoined(words[1..]);
        assert words == [w] + words[1..];
      }
    }
  }

  /** Words separated by single spaces. */
  function Spaced(words: seq<string>): string
    decreases |words|
  {
    if words == [] then []
    else if |words| == 1 then words[0]
    else words[0] + " " + Spaced(words[1..])
  }

  lemma {:induction false} WordLengthOf(w: string, rest: string)
    requires NoSpaces(w)
    requires rest == [] || IsSpace(rest[0])
    ensures WordLength(w + rest) == |w|
    decreases |w|
  {
    if w == [] {
      assert w + rest == rest;
    } else {
      assert (w + rest)[1..] == w[1..] + rest;
      WordLengthOf(w[1..], rest);
    }
  }

  // ------------------------------------------------------------------ integers

  function DigitValue(ch: char): (d: nat)
    requires IsDigit(ch)
    ensures d < 10
  {
    (ch - '0') as nat
  }

  function DigitChar(d: nat): (ch: char)
    requires d < 10
    ensures IsDigit(ch) && DigitValue(ch) == d
  {
    '0' + d as char
  }

  /** The value of a string of decimal digits, most significant first. */
  function DigitsValue(s: string): nat
    requires forall i :: 0 <= i < |s| ==> IsDigit(s[i])
    decreases |s|
  {
    if s == [] then 0 else DigitsValue(s[..|s| - 1]) * 10 + DigitValue(s[|s| - 1])
  }

  /** The most digits Python's `int()` converts from a decimal string by
      default (`sys.get_int_max_str_digits()`, Python 3.11 and later). */
  const IntMaxStrDigits: nat := 4300

  /** `int(s)` for strings of ASCII decimal digits; `None` where Python's
      `int` raises `ValueError` on such strings (the empty string, any other
      character, more digits than the conversion limit). */
  function ParseNat(s: string): (r: Option<nat>)
    ensures r.Some? <==> 0 < |s| <= IntMaxStrDigits && forall i :: 0 <= i < |s| ==> IsDigit(s[i])
  {
    if 0 < |s| <= IntMaxStrDigits && forall i :: 0 <= i < |s| ==> IsDigit(s[i]) then Some(DigitsValue(s)) else None
  }

  /** A leading zero does not change what `int()` returns. */
  lemma ParseLeadingZero(s: string)
    requires 0 < |s| < IntMaxStrDigits && forall i :: 0 <= i < |s| ==> IsDigit(s[i])
    ensures ParseNat("0" + s) == ParseNat(s)
  {
    DigitsLeadingZero(s);
  }

  lemma {:induction false} DigitsLeadingZero(s: string)
    requires forall i :: 0 <= i < |s| ==> IsDigit(s[i])
    ensures DigitsValue("0" + s) == DigitsValue(s)
    decreases |s|
  {
    var t := "0" + s;
    if s == [] {
      assert t[..|t| - 1] == [];
    } else {
      assert t[..|t| - 1] == "0" + s[..|s| - 1];
      DigitsLeadingZero(s[..|s| - 1]);
    }
  }

  /** Decimal rendering without leading zeros. */
  function ShowNat(n: nat): (s: string)
    ensures |s| > 0 && forall i :: 0 <= i < |s| ==> IsDigit(s[i])
    ensures |s| > 1 ==> s[0] != '0'
    decreases n
  {
    if n < 10 then [DigitChar(n)] else ShowNat(n / 10) + [DigitChar(n % 10)]
  }

  /** Parsing reads back what rendering wrote, for every number short
      enough to convert. */
  lemma {:induction false} ParseShow(n: nat)
    requires |ShowNat(n)| <= IntMaxStrDigits
    ensures ParseNat(ShowNat(n)) == Some(n)
    decreases n
  {
    var s := ShowNat(n);
    if n >= 10 {
      ParseShow(n / 10);
      assert s[..|s| - 1] == ShowNat(n / 10);
      assert DigitsValue(s) == (n / 10) * 10 + n % 10;
    } else {
      assert s[..|s| - 1] == [];
      assert DigitsValue(s) == n;
    }
  }
}

=== FILE: wrappers.dfy ===
/**
 The two wrappers the model uses for values that may be absent and for
 computations that may fail.
 */
module Wrappers {

  datatype Option<+T> = None | Some(value: T)

  datatype Result<+T, +E> = Ok(value: T) | Err(error: E)
}
